=== FILE: README.md ===
# Pad rhythm scheduler — a Dafny model

This project models the scheduling core of a four-pad browser drum machine.
Each pad (`pad1` … `pad4`) is toggled by a click. When it is switched on, it
resolves its own tempo and reads its timing choice ("onbeat" or "offbeat").
It then arms a one-shot timer for its first hit. The wait runs to the next
multiple of the pad's own interval on the audio clock, counted from time 0.
Further whole intervals are added until the indicator's counter, stepped
once per grid point, would read beat 1. The indicator's `setInterval` starts
at click time, so this grid point is not in general one of the indicator's
own beat-1 ticks. From there it plays a hit every pad interval, or half an
interval after every interval tick when it is off-beat. A shared beat
indicator ticks a counter 1 → 2 → 3 → 4 → 1 at the global tempo. It starts
with the first running pad, and it stops (resetting the counter to 1) when
the last pad is switched off or when the stop button is pressed. A hit plays
the pad's loaded sample if there is one. Otherwise it plays a 0.2 s sine tone
at the pad's default frequency (60, 300, 200, 200 Hz), with an exponential
decay to 0.001.

The same logic appears twice in the repository: `script.js` and `script.mjs`.
In the region modelled here, `script.mjs` is `script.js` shifted down by 14
lines (`script.js:14-143` is `script.mjs:28-157`). The table cites whichever
copy reads best.

Modules:

- `Common` — `Option`, the pad identities, and the timing choice.
- `Tempo` — global and per-pad tempo resolution, with fallbacks, and the
  interval `60000 / bpm`.
- `BeatGrid` — the bar counter:
  - the JavaScript remainder operator, which truncates toward zero;
  - `(c % 4) + 1`;
  - `(4 - ((c - 1) % 4)) % 4`.
- `Alignment` — `Math.ceil`, the next grid point, the first beat-1 time, the
  one-shot delay, and the idealised times of the on-beat and off-beat hits.
- `PadVoice` — what one hit plays: the loaded sample, or the default tone.
- `PadScheduler` — the program state as an immutable `Engine`, and every
  operation as a function from one engine to the next. The state holds:
  - the global tempo;
  - the beat counter;
  - the indicator handle;
  - `rhythmIntervals`;
  - `volumeControls`;
  - the host's table of live timers.

  Host timers are explicit: arming one takes a fresh positive handle, which is
  truthy in JavaScript. Clearing one removes it from the table. A timer's
  callback runs when `Fire` is applied to its handle.
- `SchedulerProperties` — invariants and protocol lemmas about the scheduler.
- `Session` — arbitrary sequences of clicks, timer runs, stop presses and
  slider moves, starting from page load.

The model follows the code in two places where a reader might expect
something else:

- Phase alignment uses the pad's own interval, not the global beat
  interval. A pad whose tempo differs from the global one is aligned to a
  beat 1 on its own grid, labelled with the indicator's current count.
- `startBeatIndicator` does not reset the counter. The model keeps this. The
  invariant `PadScheduler.Valid` shows the counter is already 1 whenever the
  indicator is off, so the indicator always starts from beat 1.

`Valid` is the invariant that every reachable engine satisfies:

- the global tempo is positive and the counter is in 1..4;
- the indicator runs exactly when some pad is in `rhythmIntervals`;
- the indicator's handle is the only live beat-tick timer;
- each pad in `rhythmIntervals` owns exactly one tracked live timer, at the
  handle stored for it.

## Model

| member | source | states |
|---|---|---|
| Tempo.ResolveGlobalBpm | script.js:10-11 | The global tempo is the parsed field when it is a positive number, and 120 otherwise. It is always positive. |
| Tempo.ResolvePadBpm | script.js:49-50 | A pad's tempo is its own parsed field when that is positive, and otherwise the global tempo. It is always positive. |
| Tempo.IntervalMs | script.js:56 | The interval is positive, and interval × bpm is exactly 60000 ms. |
| Tempo.PadIntervalAlwaysPositive | script.js:49-56 | Whatever both fields hold, the pad interval is positive. With both fields unusable it is 500 ms. |
| Tempo.PadTempoIndependentOfGlobal | script.js:49-50 | A pad with a usable tempo of its own is unaffected by the global tempo. |
| BeatGrid.JsRem | script.js:24 | The remainder differs from the dividend by a multiple of the divisor, is smaller than the divisor in magnitude, and takes the dividend's sign. |
| BeatGrid.Advance | script.js:24 | The counter stays in 1..4. It wraps to 1 exactly after 4, and otherwise it increases by one. |
| BeatGrid.AdvancesClosedForm | script.js:17-28 | After n indicator ticks from count c, the counter is ((c − 1 + n) mod 4) + 1. |
| BeatGrid.FourTicksReturn | script.js:24 | Four ticks bring the counter back to where it was. |
| BeatGrid.BeatsUntilNextBeat1 | script.js:73 | For a count in 1..4, the wait is 0..3 beats, and count − 1 + wait is a multiple of 4, so the wait ends on beat 1. |
| BeatGrid.BeatsUntilTable | script.js:73 | The wait is 0 at beat 1, 3 at beat 2, 2 at beat 3, and 1 at beat 4. |
| BeatGrid.BeatsUntilReachesBeat1 | script.js:73 | Ticking the counter that many times reaches beat 1, and no smaller number of ticks does. |
| Alignment.Ceil | script.js:72 | `Math.ceil(x)` is the integer n with x ≤ n < x + 1. |
| Alignment.NextBeatTime | script.js:71-72 | The next beat time lies on the pad's interval grid, is not before `now`, and is less than one interval after it. |
| Alignment.NextBeatTimeIsLeast | script.js:72 | No grid point at or after `now` is earlier than the next beat time. |
| Alignment.FirstBeatTime | script.js:74 | The first hit is on the grid, not before `now`, and less than one bar after it. |
| Alignment.FirstBeatIsEarliestBeat1 | script.js:72-74 | The first hit is the earliest grid point that the counter labels beat 1. |
| Alignment.AlignmentDelayMs | script.js:85 | The one-shot delay is non-negative and less than one bar. Waiting it out from `now` lands exactly on the first hit. |
| Alignment.OnBeatHitTime | script.js:76-79 | Under an exact host clock that does not round delays to whole milliseconds, the k-th on-beat hit is at first + k × interval. |
| Alignment.OffBeatHitTime | script.js:80-85 | Under an exact host clock that does not round delays to whole milliseconds, the k-th off-beat hit is at first + k × interval + interval/2. |
| Alignment.OnBeatSchedule | script.js:76-79 | On-beat hits start at the first beat 1, are never before `now`, and are exactly one pad interval apart. |
| Alignment.OffBeatHalfwayBetweenOnBeats | script.js:80-85 | Each off-beat hit lies strictly between two consecutive on-beat positions, exactly halfway, and after the first beat. |
| Alignment.OffBeatNeverOnBeat | script.js:80-85 | No off-beat hit ever coincides with any on-beat position. |
| PadVoice.PadOfName | script.js:145-163 | A pad identifier names a pad exactly when it is one of `pad1` … `pad4`. |
| PadVoice.PadNameRoundTrip | script.js:145-163 | Reading a pad's identifier back gives the same pad. |
| PadVoice.DefaultFrequency | script.mjs:77-79 | Every pad has a positive default tone frequency. |
| PadVoice.SynthFrequencyMatchesTable | script.mjs:76-79 | The chain of identifier tests picks 60 Hz for pad1, 300 for pad2 and 200 for pad3 and pad4, and no frequency for any other identifier. |
| PadVoice.SynthFrequency | script.mjs:76-79 | The identifier tests yield a frequency exactly for `pad1` … `pad4`, and it is positive. |
| PadVoice.SelectVoice | script.mjs:72-81 | A hit plays the pad's buffer exactly when one is loaded. Its gain is the pad's volume. Otherwise it is a tone with these properties: the default frequency, started now, ramped to 0.001 over 0.2 s, and stopped at the end of the ramp. |
| PadVoice.LoadedBufferTakesPriority | script.mjs:73-74 | Once a buffer is loaded for a pad, its hits play that buffer, whatever else is loaded. |
| PadVoice.OtherPadsBuffersIrrelevant | script.mjs:73 | Loading or removing another pad's buffer does not change what this pad plays. |
| PadVoice.FallbackIsDefaultTone | script.js:61-66 | Without a buffer, the hit is the 0.2 s default tone decaying to 0.001. |
| PadScheduler.Arm | script.js:76-85 | `setTimeout` / `setInterval` store the timer under a handle the table has never held. Every earlier timer is kept unchanged, handles stay below the next one given out, and no other engine field changes. |
| PadScheduler.Cancel | script.js:42 | `clearTimeout` / `clearInterval` remove the timer under the handle and keep every other live timer unchanged. An unknown handle is ignored, and no other engine field changes. |
| PadScheduler.Load | script.js:1-11 | At page load: nothing is running, the counter is 1, the tempo is resolved, and the state is valid. |
| PadScheduler.StartBeatIndicator | script.js:14-29 | The indicator gets a fresh recurring beat-tick timer at the given period. When the old indicator's timer was the only beat-tick timer, as in every valid engine, the new one becomes the only beat-tick timer. The counter and other timers are untouched. |
| PadScheduler.StopBeatIndicator | script.js:32-38 | The indicator is cleared and the counter is reset to 1. When the indicator's timer was the only beat-tick timer, as in every valid engine, no beat-tick timer survives. Every other timer is untouched. |
| PadScheduler.StopBeatIndicatorIdempotent | script.js:32-38 | Stopping the indicator twice is the same as stopping it once. |
| PadScheduler.TickBeatIndicator | script.js:17-25 | A tick keeps the counter in 1..4 and advances it by one bar step. Nothing else changes. |
| PadScheduler.CheckAndStopIndicator | script.js:131-135 | With no pad running, the indicator stops and the counter is reset. Otherwise the state is unchanged. |
| PadScheduler.TogglePad | script.js:40-90 | A pad is running afterwards exactly when it was off and a timing is selected. A missing timing choice raises exactly when the pad was off. Other pads' entries and the global tempo are untouched. |
| PadScheduler.StopPad | script.js:41-46 | The pad's entry is removed and its timer cancelled. No timer is added. The indicator stops, with the counter reset, exactly when no pad remains. |
| PadScheduler.StartPad | script.mjs:62-103 | A missing timing choice raises, after the slider element has been stored. Otherwise, at a fresh handle that becomes the pad's entry, a one-shot is armed. It carries the pad's resolved interval and timing, and its delay is the alignment delay. If the indicator was not running, it is started on the next fresh handle as a beat tick at the global interval. |
| PadScheduler.ArmFirstHit | script.js:76-85 | The pad's entry names a fresh handle. That handle holds a one-shot carrying the pad's interval and timing, whose delay is exactly the alignment delay. Nothing else changes. |
| PadScheduler.Fire | script.js:17-85 | A timer run produces a hit exactly for these timers: on-beat hit ticks, delayed off-beat hits, and an on-beat alignment one-shot. The hit is the pad's selected voice. For each kind of timer, what it does to the schedule:<br>• An indicator tick advances the counter one bar step and changes nothing else.<br>• An alignment one-shot is replaced by a fresh recurring timer at the pad interval, on-beat hits or off-beat ticks, which becomes the pad's entry.<br>• An on-beat tick changes nothing.<br>• An off-beat tick arms an untracked one-shot hit half an interval later.<br>• A delayed hit removes itself.<br>The tempo, indicator and volume controls are never touched. |
| PadScheduler.StopAll | script.js:137-143 | Stop clears every pad entry and its timer and stops the indicator. On a valid state it leaves a valid state in which only delayed off-beat hits remain armed. |
| PadScheduler.GlobalStop | script.js:137-143 | The loop over the pad entries computes exactly `StopAll`. |
| PadScheduler.UpdateVolume | script.js:198-209 | The pad's stored volume becomes the slider's value. No timer, pad entry, indicator or counter changes. |
| SchedulerProperties.OneTrackedTimerPerPad | script.js:76-85 | In a valid state, a running pad owns exactly one tracked timer, the one stored for it, and a stopped pad owns none. |
| SchedulerProperties.ToggleOffStopsOnlyThatPad | script.js:41-46 | Toggling a running pad off removes only its entry and its timer. All other pads' entries and timers survive. |
| SchedulerProperties.ToggleKeepsValid | script.js:40-90 | A click on any pad, on any input, keeps the state valid, including when the timing lookup raises. |
| SchedulerProperties.ToggleOnArmsOneShot | script.mjs:84-103 | Switching a pad on stores a one-shot with the pad's interval and timing. Its delay is the alignment delay. The indicator is kept if running, or else started at the global interval with the counter at 1. Other pads are untouched. |
| SchedulerProperties.ToggleOnThenOffRestores | script.js:40-90 | Switching a pad on and then off again, before its one-shot runs, restores the state. Only the fresh-handle counter and the stored slider differ. |
| SchedulerProperties.FireKeepsValid | script.js:58-85 | Any timer run keeps the state valid. |
| SchedulerProperties.ArmedPadStartsRunning | script.js:76-85 | When the alignment one-shot runs, the pad's entry is replaced by a recurring timer at the pad interval of the right kind, and the one-shot is gone. |
| SchedulerProperties.OffBeatPathAddsUp | script.js:80-85 | For an off-beat pad switched on at `now`, these timers are armed: the alignment one-shot, the recurring tick at the pad interval, and the delayed hit. The one-shot's delay, plus k tick periods, plus the delayed hit's delay, is exactly the k-th off-beat hit time. |
| SchedulerProperties.OnBeatPathAddsUp | script.js:76-79 | For an on-beat pad switched on at `now`, the one-shot's delay lands on hit 0. Adding k periods of the recurring hit timer lands on hit k. |
| SchedulerProperties.OffBeatHitOutlivesToggleOff | script.js:81-83 | The delayed off-beat hit is not tracked. Toggling the pad off right after the tick leaves it armed, so one more hit still sounds. |
| SchedulerProperties.UpdateVolumeKeepsValid | script.js:198-209 | A slider move keeps the state valid. |
| SchedulerProperties.VolumeEditInvisibleToTimers | script.mjs:212-223 | A slider move does not change what any timer run does to the schedule. |
| SchedulerProperties.GlobalStopLeavesOnlyDelayedHits | script.js:137-143 | After stop, no pad runs, the indicator is off with the counter at 1, and only untracked delayed hits remain. |
| Session.Apply | script.js:137-163 | Each event runs its own handler. A pad click leaves the pad running exactly when it was off and a timing was chosen, and leaves every other pad's running state alone. A stop press empties `rhythmIntervals`, stops the indicator and resets the counter to 1. A slider move stores the value and changes no timer or pad entry. A live beat tick advances the counter and nothing else. A cleared handle does nothing. No event changes the global tempo. |
| Session.Run | script.js:137-163 | Running any sequence of events keeps the global tempo as loaded. |
| Session.RunKeepsValid | script.js:137-163 | Any sequence of events from a valid state ends in a valid state. |
| Session.EveryReachableEngineIsValid | script.js:1-214 | Every state reachable from page load is valid. |
| Session.PhaseAlignmentAtBeatThree | script.js:70-74 | At 120 bpm with the counter at 3, the first hit is two beats (1.0 s) after the next 0.5 s grid point. |

## Left out

- DOM and CSS: highlighting the active beat in the indicator, element lookups, and the event-listener wiring. The pad, stop and slider listeners are modelled as `Session.Event`s.
- Web Audio graph construction: oscillator, gain and buffer-source nodes and their connections. `ensureAudioContext` is also left out. A hit is modelled as the `PadVoice.Voice` it would schedule.
- `loadSoundFile`, `FileReader` and `decodeAudioData`: the decoded buffers are a parameter of each timer run.
- Recording, download, and the two audio worklet processors. They do not affect the schedule.
- The top of `script.mjs` (lines 1-12), which imports the worklets and creates the audio context at load. It is outside the scheduler. These lines also stop `script.mjs` from running at all:
  - line 11 calls `new MixingProcessor()`, which is never imported, so the name is undefined;
  - line 8 imports, on the main thread, a class that extends `AudioWorkletProcessor`, which exists only inside a worklet.

  Only the `script.js` copy of the scheduler can run. The rows citing `script.mjs` cite logic that is identical in `script.js`, 14 lines earlier.
- Parsing: `parseInt` on a field is modelled as its result, `Option<int>`, with `None` for `NaN`. The timing radio value is a string choice, where any value other than "onbeat" plays off-beat, as in the code.
- Tempo.ResolvePadBpm: a field whose value is about 1.8 × 10^308 (`Number.MAX_VALUE`) or more parses to `Infinity`; that is every field of 310 or more digits, and some of 309. That value passes the `isNaN` / `<= 0` tests at script.js:11 and script.js:50 and gives an interval of 0 ms, so timers run back to back. `Option<int>` cannot hold it, so the model promises a positive interval that the code does not give for such input. Tempo.ResolveGlobalBpm has the same gap.
- Floating point: times and intervals are exact reals. `Math.ceil` is exact on them.
- Alignment.OnBeatHitTime: the host clock is idealised. A one-shot runs exactly at arm time + delay, and the k-th run of a recurring timer at arm time + k × period. Timer clamping, drift and jitter are not modelled. Browsers also truncate each timer delay to whole milliseconds. At 90 bpm, for example, the period is 666 ms rather than 666.67 ms, so the real k-th hit comes about k × 0.67 ms early. The first hit can come up to 1 ms before the exact first beat. The hit times here are the exact ones the code computes.
- Alignment.OffBeatHitTime: the same idealised host. The half-interval delay is also truncated to whole milliseconds by browsers (333 ms at 90 bpm), which is not modelled.
- PadVoice.SelectVoice: a gain of 0 is not singled out. Web Audio's `exponentialRampToValueAtTime` holds a start value of 0 until the ramp's end, so such a tone hit is silent; the model records only the gain and the ramp's target. The volume is the number the slider holds.
- PadScheduler.UpdateVolume: the gain node it creates and sets is never connected, so it has no audible effect. The model records only the stored value.
- PadScheduler.Fire: a hit reads the live slider value through a `sliders` parameter, because the callback captured the slider element rather than `volumeControls`.

=== FILE: alignment.dfy ===
/** Phase alignment of a pad's first hit, and the hit times that follow.
    Times are seconds on the audio clock; timer delays are milliseconds. */
module Alignment {
  import BeatGrid

  const MsPerSecond: real := 1000.0

  /** `Math.ceil`: the least integer not below `x`. */
  function Ceil(x: real): (n: int)
    ensures x <= n as real < x + 1.0
  {
    -((-x).Floor)
  }

  /** `t` is a whole number of intervals after time zero. */
  predicate OnIntervalGrid(t: real, interval: real)
    requires interval > 0.0
  {
    (t / interval).Floor as real == t / interval
  }

  /** `Math.ceil(now / I) * I`: the first point of the pad's interval grid at
      or after `now`. */
  function NextBeatTime(now: real, interval: real): (t: real)
    requires interval > 0.0
    ensures now <= t < now + interval
    ensures OnIntervalGrid(t, interval)
  {
    var n := Ceil(now / interval);
    CeilScaled(now, interval, n);
    n as real * interval
  }

  /** Scaling the ceiling of `now / interval` back by `interval` gives a grid
      point less than one interval past `now`. */
  lemma CeilScaled(now: real, interval: real, n: int)
    requires interval > 0.0
    requires now / interval <= n as real < now / interval + 1.0
    ensures now <= n as real * interval
    ensures n as real * interval < now + interval
    ensures OnIntervalGrid(n as real * interval, interval)
  {
    var x := now / interval;
    DivThenScale(now, interval);
    ScaleMonotone(x, n as real, interval);
    ScaleStrict(n as real, x + 1.0, interval);
    assert (x + 1.0) * interval == x * interval + interval;
    assert (n as real * interval) / interval == n as real;
  }

  lemma DivThenScale(t: real, interval: real)
    requires interval > 0.0
    ensures (t / interval) * interval == t
  {
  }

  /** No grid point at or after `now` comes earlier than `NextBeatTime`. */
  lemma NextBeatTimeIsLeast(now: real, interval: real, k: int)
    requires interval > 0.0
    requires k as real * interval >= now
    ensures NextBeatTime(now, interval) <= k as real * interval
  {
    var n := Ceil(now / interval);
    assert (k as real * interval) / interval == k as real;
    assert k as real >= now / interval;
    assert n <= k;
    assert n as real * interval <= k as real * interval;
  }

  /** `nextBeatTime + beatsUntilNextBeat1 * I`: the pad's first hit. */
  function FirstBeatTime(now: real, interval: real, counter: int): (t: real)
    requires interval > 0.0
    ensures BeatGrid.InBar(counter) ==> now <= t < now + BeatGrid.BeatsPerBar as real * interval
    ensures BeatGrid.InBar(counter) ==> OnIntervalGrid(t, interval)
  {
    var next := NextBeatTime(now, interval);
    var wait := BeatGrid.BeatsUntilNextBeat1(counter);
    GridShift(next, interval, wait);
    next + wait as real * interval
  }

  /** Moving a grid point by whole intervals lands on the grid again. */
  lemma GridShift(t: real, interval: real, m: int)
    requires interval > 0.0
    requires OnIntervalGrid(t, interval)
    ensures OnIntervalGrid(t + m as real * interval, interval)
  {
    var n := (t / interval).Floor;
    assert t == n as real * interval;
    assert t + m as real * interval == (n + m) as real * interval;
    assert ((n + m) as real * interval) / interval == (n + m) as real;
  }

  /** Labelling the grid point `NextBeatTime` with the current counter and each
      later point with the next count, the first hit is the earliest point
      labelled beat 1. */
  lemma FirstBeatIsEarliestBeat1(now: real, interval: real, counter: int)
    requires interval > 0.0
    requires BeatGrid.InBar(counter)
    ensures var wait := BeatGrid.BeatsUntilNextBeat1(counter);
            && FirstBeatTime(now, interval, counter) == NextBeatTime(now, interval) + wait as real * interval
            && BeatGrid.Advances(counter, wait) == 1
            && forall j: nat :: j < wait ==> BeatGrid.Advances(counter, j) != 1
  {
    BeatGrid.BeatsUntilReachesBeat1(counter);
  }

  /** `(firstBeatTime - now) * 1000`: the one-shot delay in milliseconds. */
  function AlignmentDelayMs(now: real, interval: real, counter: int): (d: real)
    requires interval > 0.0
    ensures BeatGrid.InBar(counter) ==> 0.0 <= d < BeatGrid.BeatsPerBar as real * interval * MsPerSecond
    ensures now + d / MsPerSecond == FirstBeatTime(now, interval, counter)
  {
    (FirstBeatTime(now, interval, counter) - now) * MsPerSecond
  }

  // An idealised host: a one-shot armed at `armedAt` with delay `delayMs`
  // runs at `armedAt + delayMs / 1000`; a recurring timer of period `periodMs`
  // runs for the k-th time (k >= 1) at `armedAt + k * periodMs / 1000`.

  function OneShotFiresAt(armedAt: real, delayMs: real): real
  {
    armedAt + delayMs / MsPerSecond
  }

  function RecurringFiresAt(armedAt: real, periodMs: real, k: nat): real
  {
    armedAt + k as real * periodMs / MsPerSecond
  }

  /** When the alignment one-shot armed at `now` runs. */
  function AlignedAt(now: real, intervalMs: real, counter: int): real
    requires intervalMs > 0.0
  {
    OneShotFiresAt(now, AlignmentDelayMs(now, intervalMs / MsPerSecond, counter))
  }

  /** The k-th hit (k >= 0) of an on-beat pad: hit 0 is played by the
      one-shot itself, hit k by the k-th run of `setInterval(play, interval)`. */
  function OnBeatHitTime(now: real, intervalMs: real, counter: int, k: nat): (t: real)
    requires intervalMs > 0.0
    ensures t == FirstBeatTime(now, intervalMs / MsPerSecond, counter) + k as real * (intervalMs / MsPerSecond)
  {
    var alignedAt := AlignedAt(now, intervalMs, counter);
    if k == 0 then alignedAt else RecurringFiresAt(alignedAt, intervalMs, k)
  }

  /** The hit of an off-beat pad caused by the k-th run (k >= 1) of its
      recurring timer, which arms `setTimeout(play, interval / 2)`. */
  function OffBeatHitTime(now: real, intervalMs: real, counter: int, k: nat): (t: real)
    requires intervalMs > 0.0
    requires k >= 1
    ensures t == FirstBeatTime(now, intervalMs / MsPerSecond, counter)
                 + k as real * (intervalMs / MsPerSecond) + (intervalMs / MsPerSecond) / 2.0
  {
    var alignedAt := AlignedAt(now, intervalMs, counter);
    OneShotFiresAt(RecurringFiresAt(alignedAt, intervalMs, k), intervalMs / 2.0)
  }

  /** On-beat hits start exactly at the first beat, never before `now`, and
      follow one another one pad interval apart. */
  lemma OnBeatSchedule(now: real, intervalMs: real, counter: int, k: nat)
    requires intervalMs > 0.0
    requires BeatGrid.InBar(counter)
    ensures OnBeatHitTime(now, intervalMs, counter, 0) == FirstBeatTime(now, intervalMs / MsPerSecond, counter)
    ensures OnBeatHitTime(now, intervalMs, counter, k) >= now
    ensures OnBeatHitTime(now, intervalMs, counter, k + 1) - OnBeatHitTime(now, intervalMs, counter, k)
            == intervalMs / MsPerSecond
  {
  }

  /** An off-beat pad never sounds at the first beat or at any on-beat
      position: its k-th hit lies strictly between on-beat positions k and
      k + 1, exactly halfway. */
  lemma OffBeatHalfwayBetweenOnBeats(now: real, intervalMs: real, counter: int, k: nat)
    requires intervalMs > 0.0
    requires k >= 1
    ensures OnBeatHitTime(now, intervalMs, counter, k) < OffBeatHitTime(now, intervalMs, counter, k)
            < OnBeatHitTime(now, intervalMs, counter, k + 1)
    ensures OffBeatHitTime(now, intervalMs, counter, k) - OnBeatHitTime(now, intervalMs, counter, k)
            == OnBeatHitTime(now, intervalMs, counter, k + 1) - OffBeatHitTime(now, intervalMs, counter, k)
    ensures OffBeatHitTime(now, intervalMs, counter, k) > FirstBeatTime(now, intervalMs / MsPerSecond, counter)
  {
    var i := intervalMs / MsPerSecond;
    var first := FirstBeatTime(now, i, counter);
    HalfStepBetween(first, i, k, OnBeatHitTime(now, intervalMs, counter, k),
      OffBeatHitTime(now, intervalMs, counter, k), OnBeatHitTime(now, intervalMs, counter, k + 1));
  }

  /** Half an interval past grid point k sits halfway to grid point k + 1. */
  lemma HalfStepBetween(first: real, i: real, k: nat, on: real, off: real, onNext: real)
    requires i > 0.0
    requires on == first + k as real * i
    requires off == first + k as real * i + i / 2.0
    requires onNext == first + (k + 1) as real * i
    ensures on < off < onNext
    ensures off - on == onNext - off
    ensures off > first
  {
    assert (k + 1) as real * i == k as real * i + i;
    ScaleMonotone(0.0, k as real, i);
  }

  /** No off-beat hit coincides with any on-beat position. */
  lemma OffBeatNeverOnBeat(now: real, intervalMs: real, counter: int, k: nat, j: nat)
    requires intervalMs > 0.0
    requires k >= 1
    ensures OffBeatHitTime(now, intervalMs, counter, k) != OnBeatHitTime(now, intervalMs, counter, j)
  {
    var i := intervalMs / MsPerSecond;
    var first := FirstBeatTime(now, i, counter);
    HalfStepIsOffGrid(first, i, k, j,
      OffBeatHitTime(now, intervalMs, counter, k), OnBeatHitTime(now, intervalMs, counter, j));
  }

  /** Half an interval past a grid point is never a grid point. */
  lemma HalfStepIsOffGrid(first: real, i: real, k: int, j: int, off: real, on: real)
    requires i > 0.0
    requires off == first + k as real * i + i / 2.0
    requires on == first + j as real * i
    ensures off != on
  {
    if j <= k {
      ScaleMonotone(j as real, k as real, i);
    } else {
      ScaleMonotone((k + 1) as real, j as real, i);
    }
  }

  lemma ScaleMonotone(a: real, b: real, i: real)
    requires a <= b
    requires i > 0.0
    ensures a * i <= b * i
  {
  }

  lemma ScaleStrict(a: real, b: real, i: real)
    requires a < b
    requires i > 0.0
    ensures a * i < b * i
  {
  }
}

=== FILE: beat_grid.dfy ===
/** The four-beat grid counter shown by the beat indicator. */
module BeatGrid {

  /** Beats in one bar of the indicator. */
  const BeatsPerBar: int := 4

  /** The counter's range: beat 1 .. beat 4. */
  predicate InBar(c: int)
  {
    1 <= c <= BeatsPerBar
  }

  /** JavaScript's `%`: the remainder of division truncated toward zero,
      so it takes the sign of the dividend (Dafny's `%` never goes negative). */
  function JsRem(a: int, n: int): (r: int)
    requires n > 0
    ensures -n < r < n
    ensures (a - r) % n == 0
    ensures a >= 0 ==> r >= 0
    ensures a <= 0 ==> r <= 0
  {
    if a >= 0 then
      var q := a / n;
      assert a == q * n + a % n;
      assert a - a % n == n * q;
      MultipleHasNoRemainder(n, q);
      a % n
    else
      var q := (-a) / n;
      assert -a == q * n + (-a) % n;
      assert a - -((-a) % n) == n * -q;
      MultipleHasNoRemainder(n, -q);
      -((-a) % n)
  }

  /** A whole multiple of `n` leaves remainder zero. */
  lemma MultipleHasNoRemainder(n: int, m: int)
    requires n > 0
    ensures (n * m) % n == 0
  {
    var x := n * m;
    var d := m - x / n;
    assert x == (x / n) * n + x % n;
    assert x % n == n * d;
  }

  /** `beatCounter = (beatCounter % 4) + 1`: one indicator tick. */
  function Advance(c: int): (next: int)
    ensures InBar(c) ==> InBar(next)
    ensures InBar(c) ==> (next == 1 <==> c == BeatsPerBar)
    ensures 1 <= c < BeatsPerBar ==> next == c + 1
  {
    JsRem(c, BeatsPerBar) + 1
  }

  /** The counter after `n` ticks. */
  function Advances(c: int, n: nat): int
  {
    if n == 0 then c else Advance(Advances(c, n - 1))
  }

  /** After `n` ticks a counter in range sits `n` places further round the bar. */
  lemma {:induction false} AdvancesClosedForm(c: int, n: nat)
    requires InBar(c)
    ensures InBar(Advances(c, n))
    ensures Advances(c, n) == (c - 1 + n) % BeatsPerBar + 1
  {
    if n > 0 {
      AdvancesClosedForm(c, n - 1);
      var prev := Advances(c, n - 1);
      assert prev == (c - 1 + (n - 1)) % BeatsPerBar + 1;
      if prev == BeatsPerBar {
        assert (c - 1 + n) % BeatsPerBar == 0;
      } else {
        assert (c - 1 + n) % BeatsPerBar == prev;
      }
    }
  }

  /** Four ticks bring the counter back to where it started. */
  lemma FourTicksReturn(c: int)
    requires InBar(c)
    ensures Advances(c, BeatsPerBar) == c
  {
    AdvancesClosedForm(c, BeatsPerBar);
    if c == 1 {
    } else if c == 2 {
    } else if c == 3 {
    } else {
    }
  }

  /** `(4 - ((beatCounter - 1) % 4)) % 4`: ticks still to come before the
      indicator is back on beat 1. */
  function BeatsUntilNextBeat1(c: int): (k: int)
    ensures InBar(c) ==> 0 <= k < BeatsPerBar
    ensures InBar(c) ==> (c - 1 + k) % BeatsPerBar == 0
  {
    JsRem(BeatsPerBar - JsRem(c - 1, BeatsPerBar), BeatsPerBar)
  }

  /** The wait for each counter value: none on beat 1, three on beat 2, two
      on beat 3, one on beat 4. */
  lemma BeatsUntilTable()
    ensures BeatsUntilNextBeat1(1) == 0
    ensures BeatsUntilNextBeat1(2) == 3
    ensures BeatsUntilNextBeat1(3) == 2
    ensures BeatsUntilNextBeat1(4) == 1
  {
  }

  /** `BeatsUntilNextBeat1` is exactly the number of ticks that takes the
      counter to beat 1, and no smaller number of ticks does. */
  lemma BeatsUntilReachesBeat1(c: int)
    requires InBar(c)
    ensures Advances(c, BeatsUntilNextBeat1(c)) == 1
    ensures forall j: nat :: j < BeatsUntilNextBeat1(c) ==> Advances(c, j) != 1
  {
    var k := BeatsUntilNextBeat1(c);
    assert c - 1 + k == if c == 1 then 0 else BeatsPerBar by {
      BeatsUntilTable();
    }
    AdvancesClosedForm(c, k);
    forall j: nat | j < k
      ensures Advances(c, j) != 1
    {
      AdvancesClosedForm(c, j);
      assert 0 < c - 1 + j < BeatsPerBar;
    }
  }
}

=== FILE: common.dfy ===
/** Types shared by every part of the pad rhythm scheduler model. */
module Common {

  /** A value that may be absent: `parseInt` giving NaN, a radio group with
      nothing checked, a map slot that is not set. */
  datatype Option<+T> = None | Some(value: T)

  /** The four pads of the page; the page only ever passes 'pad1' .. 'pad4'. */
  datatype PadId = Pad1 | Pad2 | Pad3 | Pad4

  /** The value of a pad's checked timing radio button, once interpreted:
      the code compares it with 'onbeat' and treats anything else as off-beat. */
  datatype Timing = OnBeat | OffBeat
}

=== FILE: pad_scheduler.dfy ===
/** The pad rhythm scheduler: the beat indicator, the per-pad toggle, the
    callbacks the timers run, the global stop button and volume edits.

    The page's global variables become one immutable `Engine` value, and the
    browser's timer table becomes the map `timers` from handle to pending
    timer. Every operation is a function from one `Engine` to the next. */
module PadScheduler {
  import opened Common
  import Tempo
  import BeatGrid
  import Alignment
  import PadVoice

  /** A timer handle; browsers hand out positive integers, so a stored
      handle is always truthy. */
  type Handle = h: int | h > 0 witness 1

  /** The callback a timer runs. */
  datatype Task =
    | BeatTick
      // `updateBeatIndicator`
    | AlignFirstHit(pad: PadId, intervalMs: real, timing: Timing)
      // the one-shot that waits for the aligned first beat
    | OnBeatHits(pad: PadId)
      // `setInterval(playSoundForPad, interval)`
    | OffBeatTicks(pad: PadId, intervalMs: real)
      // `setInterval(() => setTimeout(playSoundForPad, interval / 2), interval)`
    | DelayedHit(pad: PadId)
      // the nested `setTimeout(playSoundForPad, interval / 2)`
  {
    /** Tasks whose handle is kept in `rhythmIntervals` under their pad. */
    predicate Tracked()
    {
      AlignFirstHit? || OnBeatHits? || OffBeatTicks?
    }
  }

  /** A pending timer: what it runs, after how many ms, and whether it repeats. */
  datatype Timer = Timer(task: Task, delayMs: real, repeating: bool)

  /** What `volumeControls[padId]` holds: the slider element itself (stored on
      toggle-on) or a value copied from it (stored by a volume edit). */
  datatype VolumeSetting = SliderElement | SliderValue(level: real)

  datatype Engine = Engine(
    globalBpm: int,                           // read once when the page loads
    beatCounter: int,                         // next beat the indicator shows
    indicator: Option<Handle>,                // `beatIndicatorInterval`
    rhythmIntervals: map<PadId, Handle>,      // one handle per running pad
    volumeControls: map<PadId, VolumeSetting>,
    timers: map<Handle, Timer>,               // the host's live timers
    nextHandle: Handle)                       // the next handle the host gives out

  /** What the page offers a pad when it is toggled on: `parseInt` of its
      BPM field, and the value of its checked timing radio button if any. */
  datatype PadInputs = PadInputs(bpmField: Option<int>, timingChoice: Option<string>)

  /** The end of a click: normally `Done`; `Raised` when `startRhythmForPad`
      threw part-way, leaving the changes made before the throw. */
  datatype Step = Done(engine: Engine) | Raised(engine: Engine)

  /** The end of a timer callback and the hit it played, if any. */
  datatype Fired = Fired(engine: Engine, hit: Option<PadVoice.Voice>)

  // ---------------------------------------------------------------------
  // The state every reachable engine is in.

  /** Delays and periods that the code can produce. */
  predicate WellFormedTimer(t: Timer)
  {
    match t.task
    case BeatTick => t.repeating && t.delayMs > 0.0
    case AlignFirstHit(_, interval, _) => !t.repeating && interval > 0.0 && t.delayMs >= 0.0
    case OnBeatHits(_) => t.repeating && t.delayMs > 0.0
    case OffBeatTicks(_, interval) => t.repeating && interval > 0.0 && t.delayMs == interval
    case DelayedHit(_) => !t.repeating && t.delayMs > 0.0
  }

  /** The live indicator timers: exactly the one `beatIndicatorInterval`
      names, ticking at the global tempo. */
  predicate IndicatorOwnsBeatTicks(e: Engine)
    requires e.globalBpm > 0
  {
    && (e.indicator.Some? ==>
          && e.indicator.value in e.timers
          && e.timers[e.indicator.value] == Timer(BeatTick, Tempo.IntervalMs(e.globalBpm), true))
    && (forall h :: h in e.timers && e.timers[h].task.BeatTick? ==> e.indicator == Some(h))
  }

  /** The live tracked timers: exactly one per running pad, the one its
      `rhythmIntervals` entry names. */
  predicate PadsOwnTrackedTimers(e: Engine)
  {
    && (forall p :: p in e.rhythmIntervals ==>
          && e.rhythmIntervals[p] in e.timers
          && e.timers[e.rhythmIntervals[p]].task.Tracked()
          && e.timers[e.rhythmIntervals[p]].task.pad == p)
    && (forall h :: h in e.timers && e.timers[h].task.Tracked() ==>
          && e.timers[h].task.pad in e.rhythmIntervals
          && e.rhythmIntervals[e.timers[h].task.pad] == h)
  }

  /** Everything the engine's fields promise about each other, apart from
      the link between the indicator and the pad entries. */
  predicate Coherent(e: Engine)
  {
    && e.globalBpm > 0
    && BeatGrid.InBar(e.beatCounter)
    && (e.indicator.None? ==> e.beatCounter == 1)
    && (forall h :: h in e.timers ==> h < e.nextHandle)
    && (forall h :: h in e.timers ==> WellFormedTimer(e.timers[h]))
    && IndicatorOwnsBeatTicks(e)
    && PadsOwnTrackedTimers(e)
  }

  /** The invariant of every reachable engine: coherent, and the indicator
      runs exactly while some pad does. */
  predicate Valid(e: Engine)
  {
    && Coherent(e)
    && (e.indicator.Some? <==> |e.rhythmIntervals| > 0)
  }

  /** The page as loaded: the global tempo resolved, nothing running. */
  function Load(globalField: Option<int>): (e: Engine)
    ensures Valid(e)
    ensures e.globalBpm == Tempo.ResolveGlobalBpm(globalField)
    ensures e.beatCounter == 1 && e.indicator.None?
    ensures e.rhythmIntervals == map[] && e.timers == map[]
  {
    Engine(Tempo.ResolveGlobalBpm(globalField), 1, None, map[], map[], map[], 1)
  }

  // ---------------------------------------------------------------------
  // The host's timer calls.

  /** `setTimeout` / `setInterval`: register `t` under a fresh handle. The
      handle is one the table has never held, every earlier timer is kept,
      and handles stay below the next one given out. */
  function Arm(e: Engine, t: Timer): (r: (Engine, Handle))
    ensures r.1 == e.nextHandle && r.0.nextHandle > r.1
    ensures r.1 in r.0.timers && r.0.timers[r.1] == t
    ensures forall k :: k in e.timers && k != r.1 ==> k in r.0.timers && r.0.timers[k] == e.timers[k]
    ensures (forall k :: k in e.timers ==> k < e.nextHandle) ==>
              r.1 !in e.timers && forall k :: k in r.0.timers ==> k < r.0.nextHandle
    ensures r.0.globalBpm == e.globalBpm && r.0.beatCounter == e.beatCounter && r.0.indicator == e.indicator
    ensures r.0.rhythmIntervals == e.rhythmIntervals && r.0.volumeControls == e.volumeControls
  {
    (e.(timers := e.timers[e.nextHandle := t], nextHandle := e.nextHandle + 1), e.nextHandle)
  }

  /** `clearTimeout` / `clearInterval`: the timer under `h` is gone, every
      other live timer is kept as it was, and an unknown handle is ignored. */
  function Cancel(e: Engine, h: Handle): (r: Engine)
    ensures h !in r.timers
    ensures forall k :: k in e.timers && k != h ==> k in r.timers && r.timers[k] == e.timers[k]
    ensures forall k :: k in r.timers ==> k in e.timers
    ensures h !in e.timers ==> r == e
    ensures r.globalBpm == e.globalBpm && r.beatCounter == e.beatCounter && r.indicator == e.indicator
    ensures r.rhythmIntervals == e.rhythmIntervals && r.volumeControls == e.volumeControls
    ensures r.nextHandle == e.nextHandle
  {
    e.(timers := e.timers - {h})
  }

  /** The handles of live indicator timers. */
  function BeatTickHandles(e: Engine): set<Handle>
  {
    set h | h in e.timers && e.timers[h].task.BeatTick?
  }

  // ---------------------------------------------------------------------
  // The beat indicator.

  /** `startBeatIndicator(interval)`: clear the old indicator timer and arm a
      new recurring one. The counter is left alone. */
  function StartBeatIndicator(e: Engine, intervalMs: real): (r: Engine)
    ensures r.indicator == Some(e.nextHandle)
    ensures e.nextHandle in r.timers && r.timers[e.nextHandle] == Timer(BeatTick, intervalMs, true)
    ensures (forall h :: h in e.timers ==> h < e.nextHandle) &&
            (forall h :: h in e.timers && e.timers[h].task.BeatTick? ==> e.indicator == Some(h))
            ==> BeatTickHandles(r) == {e.nextHandle}
    ensures r.beatCounter == e.beatCounter && r.rhythmIntervals == e.rhythmIntervals
    ensures forall h :: h in e.timers && Some(h) != e.indicator && h != e.nextHandle ==>
              h in r.timers && r.timers[h] == e.timers[h]
  {
    var e1 := if e.indicator.Some? then Cancel(e, e.indicator.value) else e;
    var (e2, h) := Arm(e1, Timer(BeatTick, intervalMs, true));
    assert BeatTickHandles(e2) == BeatTickHandles(e1) + {h};
    e2.(indicator := Some(h))
  }

  /** `stopBeatIndicator()`: clear the indicator timer, forget its handle,
      and put the counter back on beat 1. */
  function StopBeatIndicator(e: Engine): (r: Engine)
    ensures r.indicator.None? && r.beatCounter == 1
    ensures (forall h :: h in e.timers && e.timers[h].task.BeatTick? ==> e.indicator == Some(h))
            ==> BeatTickHandles(r) == {}
    ensures r.rhythmIntervals == e.rhythmIntervals && r.nextHandle == e.nextHandle
    ensures forall h :: h in e.timers && Some(h) != e.indicator ==> h in r.timers && r.timers[h] == e.timers[h]
    ensures forall h :: h in r.timers ==> h in e.timers && r.timers[h] == e.timers[h]
  {
    var e1 := if e.indicator.Some? then Cancel(e, e.indicator.value) else e;
    e1.(indicator := None, beatCounter := 1)
  }

  /** Stopping the indicator twice is the same as stopping it once. */
  lemma StopBeatIndicatorIdempotent(e: Engine)
    ensures StopBeatIndicator(StopBeatIndicator(e)) == StopBeatIndicator(e)
  {
  }

  /** One run of `updateBeatIndicator`: show the current beat, step the counter. */
  function TickBeatIndicator(e: Engine): (r: Engine)
    ensures BeatGrid.InBar(e.beatCounter) ==> BeatGrid.InBar(r.beatCounter)
    ensures BeatGrid.InBar(e.beatCounter) ==>
              (r.beatCounter == if e.beatCounter == BeatGrid.BeatsPerBar then 1 else e.beatCounter + 1)
    ensures r == e.(beatCounter := r.beatCounter)
  {
    e.(beatCounter := BeatGrid.Advance(e.beatCounter))
  }

  /** `checkAndStopIndicator()`: stop the indicator once no pad is left. */
  function CheckAndStopIndicator(e: Engine): (r: Engine)
    ensures |e.rhythmIntervals| == 0 ==> r.indicator.None? && r.beatCounter == 1
    ensures |e.rhythmIntervals| > 0 ==> r == e
    ensures r.rhythmIntervals == e.rhythmIntervals
  {
    if |e.rhythmIntervals| == 0 then StopBeatIndicator(e) else e
  }

  // ---------------------------------------------------------------------
  // Toggling a pad.

  /** `startRhythmForPad(padId)` at audio time `now`: stop the pad if it is
      running, otherwise start it. Exactly one of the two happens, and no
      other pad's entry changes. */
  function TogglePad(e: Engine, pad: PadId, inputs: PadInputs, now: real): (r: Step)
    requires e.globalBpm > 0
    ensures pad in r.engine.rhythmIntervals <==> pad !in e.rhythmIntervals && inputs.timingChoice.Some?
    ensures r.Raised? <==> pad !in e.rhythmIntervals && inputs.timingChoice.None?
    ensures forall q :: q != pad ==>
              (q in r.engine.rhythmIntervals <==> q in e.rhythmIntervals)
              && (q in e.rhythmIntervals ==> r.engine.rhythmIntervals[q] == e.rhythmIntervals[q])
    ensures r.engine.globalBpm == e.globalBpm
  {
    if pad in e.rhythmIntervals then Done(StopPad(e, pad)) else StartPad(e, pad, inputs, now)
  }

  /** The first branch of `startRhythmForPad`: clear the pad's timer, delete
      its entry, and stop the indicator if no pad is left. */
  function StopPad(e: Engine, pad: PadId): (r: Engine)
    requires pad in e.rhythmIntervals
    ensures r.rhythmIntervals == e.rhythmIntervals - {pad}
    ensures e.rhythmIntervals[pad] !in r.timers
    ensures forall h :: h in r.timers ==> h in e.timers && r.timers[h] == e.timers[h]
    ensures r.nextHandle == e.nextHandle
    ensures |r.rhythmIntervals| == 0 ==> r.indicator.None? && r.beatCounter == 1
    ensures |r.rhythmIntervals| > 0 ==> r.indicator == e.indicator && r.beatCounter == e.beatCounter
    ensures r.globalBpm == e.globalBpm && r.volumeControls == e.volumeControls
  {
    var e1 := Cancel(e, e.rhythmIntervals[pad]);
    var e2 := e1.(rhythmIntervals := e1.rhythmIntervals - {pad});
    CheckAndStopIndicator(e2)
  }

  /** The second branch of `startRhythmForPad`: resolve the pad's tempo, keep
      its slider, read its timing (a missing choice throws), arm the one-shot
      that waits for the aligned first beat, and start the indicator at the
      global tempo if it is not running. */
  function StartPad(e: Engine, pad: PadId, inputs: PadInputs, now: real): (r: Step)
    requires e.globalBpm > 0
    ensures inputs.timingChoice.None? ==> r == Raised(e.(volumeControls := e.volumeControls[pad := SliderElement]))
    ensures inputs.timingChoice.Some? ==>
              && r.Done?
              && r.engine.rhythmIntervals == e.rhythmIntervals[pad := e.nextHandle]
              && r.engine.indicator.Some?
              && (e.indicator.Some? ==> r.engine.indicator == e.indicator)
    ensures inputs.timingChoice.Some? ==>
              var interval := Tempo.IntervalMs(Tempo.ResolvePadBpm(inputs.bpmField, e.globalBpm));
              var timing := if inputs.timingChoice.value == "onbeat" then OnBeat else OffBeat;
              && e.nextHandle in r.engine.timers
              && r.engine.timers[e.nextHandle]
                 == Timer(AlignFirstHit(pad, interval, timing),
                          Alignment.AlignmentDelayMs(now, interval / Alignment.MsPerSecond, e.beatCounter), false)
    ensures inputs.timingChoice.Some? && e.indicator.None? ==>
              && r.engine.indicator == Some(e.nextHandle + 1)
              && r.engine.indicator.value in r.engine.timers
              && r.engine.timers[r.engine.indicator.value] == Timer(BeatTick, Tempo.IntervalMs(e.globalBpm), true)
    ensures r.engine.globalBpm == e.globalBpm && r.engine.beatCounter == e.beatCounter
  {
    var bpm := Tempo.ResolvePadBpm(inputs.bpmField, e.globalBpm);
    var e1 := e.(volumeControls := e.volumeControls[pad := SliderElement]);
    if inputs.timingChoice.None? then
      Raised(e1)
    else
      var timing := if inputs.timingChoice.value == "onbeat" then OnBeat else OffBeat;
      var e3 := ArmFirstHit(e1, pad, bpm, timing, now);
      if e3.indicator.None? then
        Done(StartBeatIndicator(e3, Tempo.IntervalMs(e.globalBpm)))
      else
        Done(e3)
  }

  /** `rhythmIntervals[padId] = setTimeout(..., (firstBeatTime - now) * 1000)`:
      the one-shot carries the pad's interval and timing for when it runs. */
  function ArmFirstHit(e: Engine, pad: PadId, bpm: int, timing: Timing, now: real): (r: Engine)
    requires bpm > 0
    ensures r.rhythmIntervals == e.rhythmIntervals[pad := e.nextHandle]
    ensures e.nextHandle in r.timers
    ensures r.timers[e.nextHandle].task == AlignFirstHit(pad, Tempo.IntervalMs(bpm), timing)
    ensures r.timers[e.nextHandle].delayMs
            == Alignment.AlignmentDelayMs(now, Tempo.IntervalMs(bpm) / Alignment.MsPerSecond, e.beatCounter)
    ensures BeatGrid.InBar(e.beatCounter) ==> WellFormedTimer(r.timers[e.nextHandle])
    ensures r == e.(timers := e.timers[e.nextHandle := r.timers[e.nextHandle]],
                    nextHandle := e.nextHandle + 1, rhythmIntervals := r.rhythmIntervals)
  {
    var interval := Tempo.IntervalMs(bpm);
    var delay := Alignment.AlignmentDelayMs(now, interval / Alignment.MsPerSecond, e.beatCounter);
    var (e2, h) := Arm(e, Timer(AlignFirstHit(pad, interval, timing), delay, false));
    e2.(rhythmIntervals := e2.rhythmIntervals[pad := h])
  }

  // ---------------------------------------------------------------------
  // Timer callbacks.

  /** The host runs live timer `h` at audio time `now`. `buffers` are the
      decoded samples loaded so far and `sliders` the volume sliders' values
      at this moment: a hit reads them when it plays, not when it was armed. */
  function Fire(e: Engine, h: Handle, now: real, buffers: map<PadId, PadVoice.DecodedAudio>,
                sliders: PadId -> real): (r: Fired)
    requires h in e.timers
    ensures r.hit.Some? <==>
              || e.timers[h].task.OnBeatHits?
              || e.timers[h].task.DelayedHit?
              || (e.timers[h].task.AlignFirstHit? && e.timers[h].task.timing == OnBeat)
    ensures r.hit.Some? ==>
              var p := e.timers[h].task.pad;
              r.hit.value == PadVoice.SelectVoice(p, buffers, sliders(p), now)
    ensures !e.timers[h].task.BeatTick? ==> r.engine.beatCounter == e.beatCounter
    ensures r.engine.globalBpm == e.globalBpm && r.engine.indicator == e.indicator
    ensures r.engine.volumeControls == e.volumeControls
    // What each kind of timer does to the schedule.
    ensures e.timers[h].task.BeatTick? ==> r.engine == TickBeatIndicator(e)
    ensures e.timers[h].task.AlignFirstHit? ==>
              var t := e.timers[h].task;
              var next := if t.timing == OnBeat then OnBeatHits(t.pad) else OffBeatTicks(t.pad, t.intervalMs);
              && r.engine.timers == (e.timers - {h})[e.nextHandle := Timer(next, t.intervalMs, true)]
              && r.engine.rhythmIntervals == e.rhythmIntervals[t.pad := e.nextHandle]
              && r.engine.nextHandle == e.nextHandle + 1
    ensures e.timers[h].task.OnBeatHits? ==> r.engine == e
    ensures e.timers[h].task.OffBeatTicks? ==>
              var t := e.timers[h].task;
              && r.engine.timers == e.timers[e.nextHandle := Timer(DelayedHit(t.pad), t.intervalMs / 2.0, false)]
              && r.engine.rhythmIntervals == e.rhythmIntervals
              && r.engine.nextHandle == e.nextHandle + 1
    ensures e.timers[h].task.DelayedHit? ==>
              && r.engine.timers == e.timers - {h}
              && r.engine.rhythmIntervals == e.rhythmIntervals
              && r.engine.nextHandle == e.nextHandle
  {
    match e.timers[h].task
    case BeatTick =>
      Fired(TickBeatIndicator(e), None)
    case AlignFirstHit(pad, interval, timing) =>
      var e1 := e.(timers := e.timers - {h});
      if timing == OnBeat then
        var hit := PadVoice.SelectVoice(pad, buffers, sliders(pad), now);
        var (e2, h2) := Arm(e1, Timer(OnBeatHits(pad), interval, true));
        Fired(e2.(rhythmIntervals := e2.rhythmIntervals[pad := h2]), Some(hit))
      else
        var (e2, h2) := Arm(e1, Timer(OffBeatTicks(pad, interval), interval, true));
        Fired(e2.(rhythmIntervals := e2.rhythmIntervals[pad := h2]), None)
    case OnBeatHits(pad) =>
      Fired(e, Some(PadVoice.SelectVoice(pad, buffers, sliders(pad), now)))
    case OffBeatTicks(pad, interval) =>
      var (e2, _) := Arm(e, Timer(DelayedHit(pad), interval / 2.0, false));
      Fired(e2, None)
    case DelayedHit(pad) =>
      Fired(e.(timers := e.timers - {h}), Some(PadVoice.SelectVoice(pad, buffers, sliders(pad), now)))
  }

  // ---------------------------------------------------------------------
  // The stop button and the volume sliders.

  /** The handles `rhythmIntervals` holds for the pads in `pads`. */
  function HandlesOf(m: map<PadId, Handle>, pads: set<PadId>): set<Handle>
  {
    set p | p in pads && p in m :: m[p]
  }

  /** What the stop button leaves behind: no pad entries, their timers and
      the indicator timer cleared, the counter on beat 1. */
  function StopAll(e: Engine): (r: Engine)
    ensures r.rhythmIntervals == map[] && r.indicator.None? && r.beatCounter == 1
    ensures forall h :: (h in e.timers && h !in HandlesOf(e.rhythmIntervals, e.rhythmIntervals.Keys)
              && Some(h) != e.indicator) ==> h in r.timers && r.timers[h] == e.timers[h]
    ensures forall h :: h in r.timers ==> h in e.timers && r.timers[h] == e.timers[h]
    ensures Valid(e) ==> Valid(r) && forall h :: h in r.timers ==> r.timers[h].task.DelayedHit?
  {
    var cleared := e.(timers := e.timers - HandlesOf(e.rhythmIntervals, e.rhythmIntervals.Keys),
                      rhythmIntervals := map[]);
    StopBeatIndicator(cleared)
  }

  /** The stop button's handler: clear and delete every pad's entry one by
      one, then stop the indicator. */
  method GlobalStop(e: Engine) returns (r: Engine)
    ensures r == StopAll(e)
  {
    var pending := e.rhythmIntervals.Keys;
    r := e;
    while pending != {}
      invariant pending <= e.rhythmIntervals.Keys
      invariant r.rhythmIntervals.Keys == pending
      invariant forall p :: p in pending ==> r.rhythmIntervals[p] == e.rhythmIntervals[p]
      invariant r.timers == e.timers - HandlesOf(e.rhythmIntervals, e.rhythmIntervals.Keys - pending)
      invariant r.globalBpm == e.globalBpm && r.beatCounter == e.beatCounter && r.indicator == e.indicator
      invariant r.volumeControls == e.volumeControls && r.nextHandle == e.nextHandle
      decreases pending
    {
      var p :| p in pending;
      var h := r.rhythmIntervals[p];
      HandlesOfStep(e.rhythmIntervals, e.rhythmIntervals.Keys - pending, p);
      assert e.rhythmIntervals.Keys - (pending - {p}) == (e.rhythmIntervals.Keys - pending) + {p};
      r := r.(timers := r.timers - {h}, rhythmIntervals := r.rhythmIntervals - {p});
      pending := pending - {p};
    }
    assert r.rhythmIntervals == map[];
    assert e.rhythmIntervals.Keys - pending == e.rhythmIntervals.Keys;
    r := StopBeatIndicator(r);
  }

  /** Clearing one more pad clears one more handle. */
  lemma HandlesOfStep(m: map<PadId, Handle>, done: set<PadId>, p: PadId)
    requires p in m
    ensures HandlesOf(m, done + {p}) == HandlesOf(m, done) + {m[p]}
  {
  }

  /** `updateVolume(padId)`: copy the slider's value into `volumeControls`.
      The gain node it creates for a running pad is connected to nothing, so
      it has no effect here; the timers are not touched. */
  function UpdateVolume(e: Engine, pad: PadId, value: real): (r: Engine)
    ensures pad in r.volumeControls && r.volumeControls[pad] == SliderValue(value)
    ensures forall q :: q != pad ==> (q in r.volumeControls <==> q in e.volumeControls)
    ensures forall q :: q != pad && q in e.volumeControls ==> r.volumeControls[q] == e.volumeControls[q]
    ensures r.rhythmIntervals == e.rhythmIntervals && r.timers == e.timers
    ensures r.indicator == e.indicator && r.beatCounter == e.beatCounter
    ensures r.nextHandle == e.nextHandle && r.globalBpm == e.globalBpm
  {
    e.(volumeControls := e.volumeControls[pad := SliderValue(value)])
  }
}

=== FILE: pad_voice.dfy ===
/** What one hit of a pad sounds like: the loaded sample, or a short
    decaying sine tone at the pad's default frequency. */
module PadVoice {
  import opened Common

  /** Length of a synthesized hit, in seconds. */
  const HitDuration: real := 0.2

  /** Gain the synthesized hit's exponential ramp ends on. */
  const DecayFloor: real := 0.001

  /** A decoded audio buffer; its contents play no part in scheduling. */
  datatype DecodedAudio = DecodedAudio(id: nat)

  /** One hit as handed to the audio device. */
  datatype Voice =
    | BufferHit(buffer: DecodedAudio, gain: real)
      // a buffer source through a gain node set to the slider value
    | ToneHit(frequency: int, gain: real, startAt: real, rampTarget: real, rampEndAt: real, stopAt: real)
      // a sine oscillator through an envelope: gain set at `startAt`,
      // ramped exponentially to `rampTarget` at `rampEndAt`, stopped at `stopAt`

  /** The id string the page uses for each pad. */
  function PadName(p: PadId): string
  {
    match p
    case Pad1 => "pad1"
    case Pad2 => "pad2"
    case Pad3 => "pad3"
    case Pad4 => "pad4"
  }

  /** The pad an id string names, if any. */
  function PadOfName(name: string): (r: Option<PadId>)
    ensures r.Some? ==> PadName(r.value) == name
    ensures r.None? ==> forall p: PadId :: PadName(p) != name
  {
    if name == "pad1" then Some(Pad1)
    else if name == "pad2" then Some(Pad2)
    else if name == "pad3" then Some(Pad3)
    else if name == "pad4" then Some(Pad4)
    else None
  }

  /** Pad ids and their names convert both ways. */
  lemma PadNameRoundTrip(p: PadId)
    ensures PadOfName(PadName(p)) == Some(p)
  {
  }

  /** The frequency table for pads with no loaded sample. */
  function DefaultFrequency(p: PadId): (hz: int)
    ensures hz > 0
  {
    match p
    case Pad1 => 60
    case Pad2 => 300
    case Pad3 => 200
    case Pad4 => 200
  }

  /** The chain of `if (padId === ...) sound = createOscillator(f)` tests
      on the id string; `None` is the case where `sound` stays undefined. */
  function SynthFrequency(padId: string): (hz: Option<int>)
    ensures hz.Some? <==> padId in {"pad1", "pad2", "pad3", "pad4"}
    ensures hz.Some? ==> hz.value > 0
  {
    if padId == "pad1" then Some(60)
    else if padId == "pad2" then Some(300)
    else if padId == "pad3" || padId == "pad4" then Some(200)
    else None
  }

  /** The string tests pick a frequency exactly for the four pad names, and
      the one they pick is the table's. */
  lemma SynthFrequencyMatchesTable(name: string)
    ensures PadOfName(name).Some? ==> SynthFrequency(name) == Some(DefaultFrequency(PadOfName(name).value))
    ensures PadOfName(name).None? ==> SynthFrequency(name).None?
  {
  }

  /** The body of `playSoundForPad`: play the pad's buffer when one is loaded,
      otherwise synthesize a tone; `volume` is the slider's value read now. */
  function SelectVoice(pad: PadId, buffers: map<PadId, DecodedAudio>, volume: real, now: real): (v: Voice)
    ensures v.BufferHit? <==> pad in buffers
    ensures v.gain == volume
    ensures v.BufferHit? ==> v.buffer == buffers[pad]
    ensures v.ToneHit? ==> v.frequency == DefaultFrequency(pad)
    ensures v.ToneHit? ==> v.startAt == now && v.rampEndAt - v.startAt == HitDuration
    ensures v.ToneHit? ==> v.stopAt == v.rampEndAt && v.rampTarget == DecayFloor
  {
    if pad in buffers then BufferHit(buffers[pad], volume)
    else ToneHit(DefaultFrequency(pad), volume, now, DecayFloor, now + HitDuration, now + HitDuration)
  }

  /** Loading a buffer for a pad makes every later hit of that pad play it,
      whatever else is loaded. */
  lemma LoadedBufferTakesPriority(pad: PadId, buffers: map<PadId, DecodedAudio>, b: DecodedAudio, volume: real, now: real)
    ensures SelectVoice(pad, buffers[pad := b], volume, now) == BufferHit(b, volume)
  {
  }

  /** What is loaded for one pad never changes how another pad sounds. */
  lemma OtherPadsBuffersIrrelevant(pad: PadId, other: PadId, buffers: map<PadId, DecodedAudio>, b: DecodedAudio, volume: real, now: real)
    requires other != pad
    ensures SelectVoice(pad, buffers[other := b], volume, now) == SelectVoice(pad, buffers, volume, now)
    ensures SelectVoice(pad, buffers - {other}, volume, now) == SelectVoice(pad, buffers, volume, now)
  {
  }

  /** With nothing loaded, a hit is a 0.2 s tone at the table frequency. */
  lemma FallbackIsDefaultTone(pad: PadId, buffers: map<PadId, DecodedAudio>, volume: real, now: real)
    requires pad !in buffers
    ensures SelectVoice(pad, buffers, volume, now)
            == ToneHit(DefaultFrequency(pad), volume, now, DecayFloor, now + HitDuration, now + HitDuration)
  {
  }
}

=== FILE: scheduler_properties.dfy ===
/** Properties of the pad rhythm scheduler that relate several steps: the
    invariant every operation keeps, what a toggle changes and leaves alone,
    how an armed pad becomes a running one, and what a stop cannot cancel. */
module SchedulerProperties {
  import opened Common
  import Tempo
  import BeatGrid
  import Alignment
  import PadVoice
  import opened PadScheduler

  /** The handles of live tracked timers belonging to pad `p`. */
  function TrackedHandles(e: Engine, p: PadId): set<Handle>
  {
    set h | h in e.timers && e.timers[h].task.Tracked() && e.timers[h].task.pad == p
  }

  /** A running pad has exactly one live tracked timer and a stopped pad
      none: there is never a second timer per pad. */
  lemma OneTrackedTimerPerPad(e: Engine, p: PadId)
    requires Valid(e)
    ensures p in e.rhythmIntervals ==> TrackedHandles(e, p) == {e.rhythmIntervals[p]}
    ensures p !in e.rhythmIntervals ==> TrackedHandles(e, p) == {}
  {
  }

  /** Toggling a running pad off removes that pad's entry only, clears its
      timer, arms nothing, keeps every other pad's timer, and leaves the
      indicator running exactly when some pad still is. */
  lemma ToggleOffStopsOnlyThatPad(e: Engine, pad: PadId, inputs: PadInputs, now: real)
    requires Valid(e)
    requires pad in e.rhythmIntervals
    ensures var r := TogglePad(e, pad, inputs, now).engine;
            && r.rhythmIntervals == e.rhythmIntervals - {pad}
            && TrackedHandles(r, pad) == {}
            && r.nextHandle == e.nextHandle
            && (forall h :: h in r.timers ==> h in e.timers && r.timers[h] == e.timers[h])
            && (forall q :: q in r.rhythmIntervals ==> r.timers[r.rhythmIntervals[q]] == e.timers[e.rhythmIntervals[q]])
            && (r.indicator.None? <==> |r.rhythmIntervals| == 0)
            && (|r.rhythmIntervals| > 0 ==> r.indicator == e.indicator && r.beatCounter == e.beatCounter)
            && (|r.rhythmIntervals| == 0 ==> r.beatCounter == 1)
  {
    StopPadKeepsValid(e, pad);
    var r := StopPad(e, pad);
    OneTrackedTimerPerPad(r, pad);
  }

  /** Every toggle, including one that throws, keeps the invariant. */
  lemma ToggleKeepsValid(e: Engine, pad: PadId, inputs: PadInputs, now: real)
    requires Valid(e)
    ensures Valid(TogglePad(e, pad, inputs, now).engine)
  {
    if pad in e.rhythmIntervals {
      StopPadKeepsValid(e, pad);
    } else if inputs.timingChoice.Some? {
      StartPadKeepsValid(e, pad, inputs, now);
    }
  }

  lemma StopPadKeepsValid(e: Engine, pad: PadId)
    requires Valid(e)
    requires pad in e.rhythmIntervals
    ensures Valid(StopPad(e, pad))
  {
    var h := e.rhythmIntervals[pad];
    var e2 := e.(timers := e.timers - {h}, rhythmIntervals := e.rhythmIntervals - {pad});
    assert StopPad(e, pad) == CheckAndStopIndicator(e2);
    DropPadCoherent(e, pad);
    if |e2.rhythmIntervals| == 0 {
      assert Valid(StopBeatIndicator(e2));
    } else {
      assert |e.rhythmIntervals| > 0;
    }
  }

  /** Clearing a pad's timer and deleting its entry keeps the engine coherent. */
  lemma DropPadCoherent(e: Engine, pad: PadId)
    requires Coherent(e)
    requires pad in e.rhythmIntervals
    ensures var h := e.rhythmIntervals[pad];
            Coherent(e.(timers := e.timers - {h}, rhythmIntervals := e.rhythmIntervals - {pad}))
  {
    var h := e.rhythmIntervals[pad];
    var e2 := e.(timers := e.timers - {h}, rhythmIntervals := e.rhythmIntervals - {pad});
    forall q | q in e2.rhythmIntervals
      ensures e2.rhythmIntervals[q] in e2.timers
    {
      assert e.rhythmIntervals[q] != h;
    }
    assert PadsOwnTrackedTimers(e2);
    assert IndicatorOwnsBeatTicks(e2);
  }

  lemma StartPadKeepsValid(e: Engine, pad: PadId, inputs: PadInputs, now: real)
    requires Valid(e)
    requires pad !in e.rhythmIntervals
    requires inputs.timingChoice.Some?
    ensures Valid(StartPad(e, pad, inputs, now).engine)
  {
    var bpm := Tempo.ResolvePadBpm(inputs.bpmField, e.globalBpm);
    var timing := if inputs.timingChoice.value == "onbeat" then OnBeat else OffBeat;
    var e1 := e.(volumeControls := e.volumeControls[pad := SliderElement]);
    var e3 := ArmFirstHit(e1, pad, bpm, timing, now);
    ArmFirstHitCoherent(e1, pad, bpm, timing, now);
    if e.indicator.None? {
      StartBeatIndicatorKeepsCoherent(e3);
    } else {
      assert |e3.rhythmIntervals| > 0 by {
        assert pad in e3.rhythmIntervals.Keys;
      }
    }
  }

  lemma ArmFirstHitCoherent(e: Engine, pad: PadId, bpm: int, timing: Timing, now: real)
    requires Valid(e)
    requires bpm > 0
    requires pad !in e.rhythmIntervals
    ensures Coherent(ArmFirstHit(e, pad, bpm, timing, now))
  {
    var n := e.nextHandle;
    var t := ArmFirstHit(e, pad, bpm, timing, now).timers[n];
    assert ArmFirstHit(e, pad, bpm, timing, now)
           == e.(timers := e.timers[n := t], nextHandle := n + 1, rhythmIntervals := e.rhythmIntervals[pad := n]);
    AddPadTimerCoherent(e, pad, t);
  }

  /** Arming a fresh tracked timer for a stopped pad and recording it as the
      pad's entry keeps the engine coherent. */
  lemma AddPadTimerCoherent(e: Engine, pad: PadId, t: Timer)
    requires Coherent(e)
    requires pad !in e.rhythmIntervals
    requires t.task.Tracked() && t.task.pad == pad && WellFormedTimer(t)
    ensures Coherent(e.(timers := e.timers[e.nextHandle := t], nextHandle := e.nextHandle + 1,
                        rhythmIntervals := e.rhythmIntervals[pad := e.nextHandle]))
  {
    var r := e.(timers := e.timers[e.nextHandle := t], nextHandle := e.nextHandle + 1,
                rhythmIntervals := e.rhythmIntervals[pad := e.nextHandle]);
    assert e.nextHandle !in e.timers;
    assert PadsOwnTrackedTimers(r);
    assert IndicatorOwnsBeatTicks(r);
  }

  /** Starting the indicator on a coherent engine with none running and some
      pad entry gives a valid engine. */
  lemma StartBeatIndicatorKeepsCoherent(e: Engine)
    requires Coherent(e)
    requires e.indicator.None?
    requires |e.rhythmIntervals| > 0
    ensures Valid(StartBeatIndicator(e, Tempo.IntervalMs(e.globalBpm)))
  {
    var r := StartBeatIndicator(e, Tempo.IntervalMs(e.globalBpm));
    assert r.timers == e.timers[e.nextHandle := Timer(BeatTick, Tempo.IntervalMs(e.globalBpm), true)];
    assert PadsOwnTrackedTimers(r);
    assert IndicatorOwnsBeatTicks(r);
  }

  /** Toggling a stopped pad (with a timing chosen) gives it exactly one
      entry: a one-shot carrying the pad's resolved interval and timing, due
      after the alignment delay. The indicator is then running; an existing
      indicator is kept, a new one ticks at the global tempo from beat 1. */
  lemma ToggleOnArmsOneShot(e: Engine, pad: PadId, inputs: PadInputs, now: real)
    requires Valid(e)
    requires pad !in e.rhythmIntervals
    requires inputs.timingChoice.Some?
    ensures var r := TogglePad(e, pad, inputs, now).engine;
            var interval := Tempo.IntervalMs(Tempo.ResolvePadBpm(inputs.bpmField, e.globalBpm));
            var timing := if inputs.timingChoice.value == "onbeat" then OnBeat else OffBeat;
            && r.rhythmIntervals.Keys == e.rhythmIntervals.Keys + {pad}
            && TrackedHandles(r, pad) == {r.rhythmIntervals[pad]}
            && r.timers[r.rhythmIntervals[pad]]
               == Timer(AlignFirstHit(pad, interval, timing),
                        Alignment.AlignmentDelayMs(now, interval / Alignment.MsPerSecond, e.beatCounter), false)
            && (forall q :: q in e.rhythmIntervals ==>
                  r.rhythmIntervals[q] == e.rhythmIntervals[q]
                  && r.timers[r.rhythmIntervals[q]] == e.timers[e.rhythmIntervals[q]])
            && r.indicator.Some?
            && (e.indicator.Some? ==> r.indicator == e.indicator)
            && (e.indicator.None? ==>
                  r.timers[r.indicator.value] == Timer(BeatTick, Tempo.IntervalMs(e.globalBpm), true)
                  && r.beatCounter == 1)
  {
    ToggleOnTracksOneTimer(e, pad, inputs, now);
    ToggleOnArmsEntries(e, pad, inputs, now);
    ToggleOnRunsIndicator(e, pad, inputs, now);
  }

  /** The pad entries and their timers after a toggle-on. */
  lemma ToggleOnArmsEntries(e: Engine, pad: PadId, inputs: PadInputs, now: real)
    requires Coherent(e)
    requires pad !in e.rhythmIntervals
    requires inputs.timingChoice.Some?
    ensures var r := TogglePad(e, pad, inputs, now).engine;
            var interval := Tempo.IntervalMs(Tempo.ResolvePadBpm(inputs.bpmField, e.globalBpm));
            var timing := if inputs.timingChoice.value == "onbeat" then OnBeat else OffBeat;
            && r.rhythmIntervals.Keys == e.rhythmIntervals.Keys + {pad}
            && r.rhythmIntervals[pad] in r.timers
            && r.timers[r.rhythmIntervals[pad]]
               == Timer(AlignFirstHit(pad, interval, timing),
                        Alignment.AlignmentDelayMs(now, interval / Alignment.MsPerSecond, e.beatCounter), false)
            && (forall q :: q in e.rhythmIntervals ==>
                  r.rhythmIntervals[q] == e.rhythmIntervals[q]
                  && r.rhythmIntervals[q] in r.timers
                  && r.timers[r.rhythmIntervals[q]] == e.timers[e.rhythmIntervals[q]])
  {
    var e3 := ToggleOnArmed(e, pad, inputs, now);
    var n := e.nextHandle;
    var armed := e3.timers[n];
    ToggleOnUnfolds(e, pad, inputs, now);
    if e.indicator.None? {
      EntriesSurviveArming(e, e3, StartBeatIndicator(e3, Tempo.IntervalMs(e.globalBpm)), pad, armed);
    } else {
      EntriesSurviveArming(e, e3, e3, pad, armed);
    }
  }

  /** The engine a toggle-on reaches once the one-shot is armed, before the
      indicator is looked at. */
  function ToggleOnArmed(e: Engine, pad: PadId, inputs: PadInputs, now: real): Engine
    requires e.globalBpm > 0
    requires inputs.timingChoice.Some?
  {
    var bpm := Tempo.ResolvePadBpm(inputs.bpmField, e.globalBpm);
    var timing := if inputs.timingChoice.value == "onbeat" then OnBeat else OffBeat;
    ArmFirstHit(e.(volumeControls := e.volumeControls[pad := SliderElement]), pad, bpm, timing, now)
  }

  lemma ToggleOnUnfolds(e: Engine, pad: PadId, inputs: PadInputs, now: real)
    requires e.globalBpm > 0
    requires pad !in e.rhythmIntervals
    requires inputs.timingChoice.Some?
    ensures var e3 := ToggleOnArmed(e, pad, inputs, now);
            && e3.nextHandle == e.nextHandle + 1
            && e3.indicator == e.indicator
            && e.nextHandle in e3.timers
            && e3.timers == e.timers[e.nextHandle := e3.timers[e.nextHandle]]
            && e3.rhythmIntervals == e.rhythmIntervals[pad := e.nextHandle]
            && TogglePad(e, pad, inputs, now).engine
               == if e.indicator.None? then StartBeatIndicator(e3, Tempo.IntervalMs(e.globalBpm)) else e3
  {
  }

  /** Arming a fresh handle for a new pad, and then possibly a further fresh
      handle, leaves every older pad's entry and timer as they were. */
  lemma EntriesSurviveArming(e: Engine, e3: Engine, r: Engine, pad: PadId, armed: Timer)
    requires forall h :: h in e.timers ==> h < e.nextHandle
    requires forall q :: q in e.rhythmIntervals ==> e.rhythmIntervals[q] in e.timers
    requires pad !in e.rhythmIntervals
    requires e3.timers == e.timers[e.nextHandle := armed]
    requires e3.rhythmIntervals == e.rhythmIntervals[pad := e.nextHandle]
    requires e3.nextHandle == e.nextHandle + 1
    requires r.rhythmIntervals == e3.rhythmIntervals
    requires forall h :: h in e3.timers && h != e3.nextHandle ==> h in r.timers && r.timers[h] == e3.timers[h]
    ensures r.rhythmIntervals.Keys == e.rhythmIntervals.Keys + {pad}
    ensures r.rhythmIntervals[pad] in r.timers && r.timers[r.rhythmIntervals[pad]] == armed
    ensures forall q :: q in e.rhythmIntervals ==>
              r.rhythmIntervals[q] == e.rhythmIntervals[q]
              && r.rhythmIntervals[q] in r.timers
              && r.timers[r.rhythmIntervals[q]] == e.timers[e.rhythmIntervals[q]]
  {
    assert r.rhythmIntervals.Keys == e.rhythmIntervals.Keys + {pad};
    forall q | q in e.rhythmIntervals
      ensures r.rhythmIntervals[q] == e.rhythmIntervals[q]
      ensures r.rhythmIntervals[q] in r.timers
      ensures r.timers[r.rhythmIntervals[q]] == e.timers[e.rhythmIntervals[q]]
    {
      assert e.rhythmIntervals[q] < e.nextHandle;
    }
  }

  /** The indicator after a toggle-on. */
  lemma ToggleOnRunsIndicator(e: Engine, pad: PadId, inputs: PadInputs, now: real)
    requires Coherent(e)
    requires pad !in e.rhythmIntervals
    requires inputs.timingChoice.Some?
    ensures var r := TogglePad(e, pad, inputs, now).engine;
            && r.indicator.Some?
            && (e.indicator.Some? ==> r.indicator == e.indicator)
            && (e.indicator.None? ==>
                  r.timers[r.indicator.value] == Timer(BeatTick, Tempo.IntervalMs(e.globalBpm), true)
                  && r.beatCounter == 1)
  {
    var bpm := Tempo.ResolvePadBpm(inputs.bpmField, e.globalBpm);
    var timing := if inputs.timingChoice.value == "onbeat" then OnBeat else OffBeat;
    var e1 := e.(volumeControls := e.volumeControls[pad := SliderElement]);
    var e3 := ArmFirstHit(e1, pad, bpm, timing, now);
    if e.indicator.None? {
      assert TogglePad(e, pad, inputs, now).engine == StartBeatIndicator(e3, Tempo.IntervalMs(e.globalBpm));
    }
  }

  lemma ToggleOnTracksOneTimer(e: Engine, pad: PadId, inputs: PadInputs, now: real)
    requires Valid(e)
    requires pad !in e.rhythmIntervals
    requires inputs.timingChoice.Some?
    ensures var r := TogglePad(e, pad, inputs, now).engine;
            pad in r.rhythmIntervals && TrackedHandles(r, pad) == {r.rhythmIntervals[pad]}
  {
    StartPadKeepsValid(e, pad, inputs, now);
    OneTrackedTimerPerPad(TogglePad(e, pad, inputs, now).engine, pad);
  }

  /** Toggling a stopped pad on and straight off again gives back the engine
      it started from, apart from the handles used up and the pad's
      `volumeControls` entry. */
  lemma ToggleOnThenOffRestores(e: Engine, pad: PadId, on: PadInputs, off: PadInputs, now1: real, now2: real)
    requires Valid(e)
    requires pad !in e.rhythmIntervals
    requires on.timingChoice.Some?
    ensures var mid := TogglePad(e, pad, on, now1).engine;
            TogglePad(mid, pad, off, now2)
            == Done(e.(volumeControls := e.volumeControls[pad := SliderElement], nextHandle := mid.nextHandle))
  {
    var n := e.nextHandle;
    var bpm := Tempo.ResolvePadBpm(on.bpmField, e.globalBpm);
    var timing := if on.timingChoice.value == "onbeat" then OnBeat else OffBeat;
    var e1 := e.(volumeControls := e.volumeControls[pad := SliderElement]);
    var e3 := ArmFirstHit(e1, pad, bpm, timing, now1);
    var mid := TogglePad(e, pad, on, now1).engine;
    assert n !in e.timers && n + 1 !in e.timers;
    if e.indicator.None? {
      assert e.rhythmIntervals == map[] by {
        assert |e.rhythmIntervals| == 0;
      }
      assert mid == StartBeatIndicator(e3, Tempo.IntervalMs(e.globalBpm));
      FirstPadOnThenOff(e, e3, pad, e3.timers[n]);
    } else {
      assert mid == e3;
      LaterPadOnThenOff(e, e3, pad, e3.timers[n]);
    }
  }

  lemma FirstPadOnThenOff(e: Engine, e3: Engine, pad: PadId, armed: Timer)
    requires e.globalBpm > 0 && e.indicator.None? && e.beatCounter == 1 && e.rhythmIntervals == map[]
    requires e.nextHandle !in e.timers && e.nextHandle + 1 !in e.timers
    requires e3 == e.(volumeControls := e3.volumeControls, timers := e.timers[e.nextHandle := armed],
                      nextHandle := e.nextHandle + 1, rhythmIntervals := map[pad := e.nextHandle])
    ensures var mid := StartBeatIndicator(e3, Tempo.IntervalMs(e.globalBpm));
            StopPad(mid, pad) == e.(volumeControls := e3.volumeControls, nextHandle := mid.nextHandle)
  {
    var n := e.nextHandle;
    var tick := Timer(BeatTick, Tempo.IntervalMs(e.globalBpm), true);
    var mid := StartBeatIndicator(e3, Tempo.IntervalMs(e.globalBpm));
    assert mid == e3.(timers := e3.timers[n + 1 := tick], nextHandle := n + 2, indicator := Some(n + 1));
    var cleared := mid.(timers := mid.timers - {n}, rhythmIntervals := map[]);
    assert StopPad(mid, pad) == CheckAndStopIndicator(cleared);
    assert CheckAndStopIndicator(cleared) == cleared.(timers := cleared.timers - {n + 1}, indicator := None, beatCounter := 1);
    ArmTwiceThenCancel(e.timers, n, armed, tick);
  }

  /** Arming two fresh handles and clearing both leaves the table as it was. */
  lemma ArmTwiceThenCancel(m: map<Handle, Timer>, n: Handle, a: Timer, b: Timer)
    requires n !in m && n + 1 !in m
    ensures (m[n := a][n + 1 := b] - {n}) - {n + 1} == m
  {
  }

  lemma LaterPadOnThenOff(e: Engine, e3: Engine, pad: PadId, armed: Timer)
    requires |e.rhythmIntervals| > 0 && pad !in e.rhythmIntervals && e.nextHandle !in e.timers
    requires e3 == e.(volumeControls := e3.volumeControls, timers := e.timers[e.nextHandle := armed],
                      nextHandle := e.nextHandle + 1, rhythmIntervals := e.rhythmIntervals[pad := e.nextHandle])
    ensures StopPad(e3, pad) == e.(volumeControls := e3.volumeControls, nextHandle := e3.nextHandle)
  {
    var n := e.nextHandle;
    assert e3.rhythmIntervals - {pad} == e.rhythmIntervals;
    assert e3.timers - {n} == e.timers;
  }

  /** Every timer callback keeps the invariant. */
  lemma FireKeepsValid(e: Engine, h: Handle, now: real, buffers: map<PadId, PadVoice.DecodedAudio>,
                       sliders: PadId -> real)
    requires Valid(e)
    requires h in e.timers
    ensures Valid(Fire(e, h, now, buffers, sliders).engine)
  {
    var r := Fire(e, h, now, buffers, sliders).engine;
    match e.timers[h].task
    case BeatTick =>
      assert r == e.(beatCounter := BeatGrid.Advance(e.beatCounter));
      TickKeepsValid(e, h);
    case AlignFirstHit(pad, interval, timing) =>
      AlignmentFiredKeepsValid(e, h, now, buffers, sliders);
    case OnBeatHits(pad) =>
      assert r == e;
    case OffBeatTicks(pad, interval) =>
      var t := Timer(DelayedHit(pad), interval / 2.0, false);
      assert r == e.(timers := e.timers[e.nextHandle := t], nextHandle := e.nextHandle + 1);
      ArmDelayedHitKeepsValid(e, t);
    case DelayedHit(pad) =>
      assert r == e.(timers := e.timers - {h});
      CancelDelayedHitKeepsValid(e, h);
  }

  lemma TickKeepsValid(e: Engine, h: Handle)
    requires Valid(e)
    requires h in e.timers && e.timers[h].task.BeatTick?
    ensures Valid(e.(beatCounter := BeatGrid.Advance(e.beatCounter)))
  {
    assert e.indicator == Some(h);
    var r := e.(beatCounter := BeatGrid.Advance(e.beatCounter));
    assert IndicatorOwnsBeatTicks(r);
    assert PadsOwnTrackedTimers(r);
  }

  lemma ArmDelayedHitKeepsValid(e: Engine, t: Timer)
    requires Valid(e)
    requires t.task.DelayedHit? && WellFormedTimer(t)
    ensures Valid(e.(timers := e.timers[e.nextHandle := t], nextHandle := e.nextHandle + 1))
  {
    var r := e.(timers := e.timers[e.nextHandle := t], nextHandle := e.nextHandle + 1);
    assert e.nextHandle !in e.timers;
    assert PadsOwnTrackedTimers(r);
    assert IndicatorOwnsBeatTicks(r);
  }

  lemma CancelDelayedHitKeepsValid(e: Engine, h: Handle)
    requires Valid(e)
    requires h in e.timers && e.timers[h].task.DelayedHit?
    ensures Valid(e.(timers := e.timers - {h}))
  {
    var r := e.(timers := e.timers - {h});
    assert PadsOwnTrackedTimers(r);
    assert IndicatorOwnsBeatTicks(r);
  }

  lemma AlignmentFiredKeepsValid(e: Engine, h: Handle, now: real, buffers: map<PadId, PadVoice.DecodedAudio>,
                                 sliders: PadId -> real)
    requires Valid(e)
    requires h in e.timers && e.timers[h].task.AlignFirstHit?
    ensures Valid(Fire(e, h, now, buffers, sliders).engine)
  {
    var task := e.timers[h].task;
    var pad := task.pad;
    var next := if task.timing == OnBeat then OnBeatHits(pad) else OffBeatTicks(pad, task.intervalMs);
    var t := Timer(next, task.intervalMs, true);
    assert e.rhythmIntervals[pad] == h;
    assert Fire(e, h, now, buffers, sliders).engine == ReplacePadTimer(e, pad, t);
    ReplacePadTimerKeepsValid(e, pad, t);
  }

  /** The engine after a pad's tracked timer is cleared and a fresh timer
      `t` is armed in its place. */
  function ReplacePadTimer(e: Engine, pad: PadId, t: Timer): Engine
    requires pad in e.rhythmIntervals
  {
    e.(timers := (e.timers - {e.rhythmIntervals[pad]})[e.nextHandle := t],
       nextHandle := e.nextHandle + 1,
       rhythmIntervals := e.rhythmIntervals[pad := e.nextHandle])
  }

  /** Replacing a pad's tracked timer by a fresh one for the same pad keeps
      the invariant. */
  lemma ReplacePadTimerKeepsValid(e: Engine, pad: PadId, t: Timer)
    requires Valid(e)
    requires pad in e.rhythmIntervals
    requires t.task.Tracked() && t.task.pad == pad && WellFormedTimer(t)
    ensures Valid(ReplacePadTimer(e, pad, t))
  {
    var r := ReplacePadTimer(e, pad, t);
    assert r.rhythmIntervals.Keys == e.rhythmIntervals.Keys;
    ReplacePadTimerOwnsTimers(e, pad, t);
    ReplacePadTimerKeepsIndicator(e, pad, t);
  }

  lemma ReplacePadTimerOwnsTimers(e: Engine, pad: PadId, t: Timer)
    requires PadsOwnTrackedTimers(e)
    requires forall h :: h in e.timers ==> h < e.nextHandle
    requires pad in e.rhythmIntervals
    requires t.task.Tracked() && t.task.pad == pad
    ensures PadsOwnTrackedTimers(ReplacePadTimer(e, pad, t))
  {
    var stale := e.rhythmIntervals[pad];
    var r := ReplacePadTimer(e, pad, t);
    forall p | p in r.rhythmIntervals
      ensures r.rhythmIntervals[p] in r.timers
      ensures r.timers[r.rhythmIntervals[p]].task.Tracked()
      ensures r.timers[r.rhythmIntervals[p]].task.pad == p
    {
      if p != pad {
        assert e.rhythmIntervals[p] != stale;
        assert e.rhythmIntervals[p] < e.nextHandle;
      }
    }
    forall h | h in r.timers && r.timers[h].task.Tracked()
      ensures r.timers[h].task.pad in r.rhythmIntervals
      ensures r.rhythmIntervals[r.timers[h].task.pad] == h
    {
      if h != e.nextHandle {
        assert h in e.timers && h != stale;
      }
    }
  }

  lemma ReplacePadTimerKeepsIndicator(e: Engine, pad: PadId, t: Timer)
    requires e.globalBpm > 0
    requires IndicatorOwnsBeatTicks(e)
    requires forall h :: h in e.timers ==> h < e.nextHandle
    requires pad in e.rhythmIntervals && e.rhythmIntervals[pad] in e.timers
    requires e.timers[e.rhythmIntervals[pad]].task.Tracked()
    requires t.task.Tracked()
    ensures IndicatorOwnsBeatTicks(ReplacePadTimer(e, pad, t))
  {
    var r := ReplacePadTimer(e, pad, t);
    assert e.indicator.Some? ==> e.indicator.value != e.rhythmIntervals[pad];
    forall h | h in r.timers && r.timers[h].task.BeatTick?
      ensures r.indicator == Some(h)
    {
      assert h in e.timers;
    }
  }

  /** When an armed pad's one-shot runs, the pad becomes a running pad: its
      entry now names a fresh recurring timer of the pad's interval (playing
      on the beat, or ticking for the off-beat), the one-shot is gone, an
      on-beat pad plays its first hit at once and an off-beat pad does not,
      and no other pad is touched. */
  lemma ArmedPadStartsRunning(e: Engine, h: Handle, now: real, buffers: map<PadId, PadVoice.DecodedAudio>,
                              sliders: PadId -> real)
    requires Valid(e)
    requires h in e.timers && e.timers[h].task.AlignFirstHit?
    ensures var t := e.timers[h].task;
            var f := Fire(e, h, now, buffers, sliders);
            var h2 := f.engine.rhythmIntervals[t.pad];
            && e.rhythmIntervals[t.pad] == h
            && h !in f.engine.timers
            && h2 !in e.timers
            && f.engine.timers[h2].repeating
            && f.engine.timers[h2].delayMs == t.intervalMs
            && (t.timing == OnBeat ==>
                  f.engine.timers[h2].task == OnBeatHits(t.pad)
                  && f.hit == Some(PadVoice.SelectVoice(t.pad, buffers, sliders(t.pad), now)))
            && (t.timing == OffBeat ==>
                  f.engine.timers[h2].task == OffBeatTicks(t.pad, t.intervalMs) && f.hit.None?)
            && (forall q :: q in e.rhythmIntervals && q != t.pad ==>
                  f.engine.rhythmIntervals[q] == e.rhythmIntervals[q]
                  && f.engine.timers[f.engine.rhythmIntervals[q]] == e.timers[e.rhythmIntervals[q]])
  {
  }

  /** The delays the engine arms for an off-beat pad add up to its hit
      times: the alignment one-shot's delay, then k periods of the recurring
      tick, then the delayed hit's half interval land on the k-th off-beat
      hit of the idealised schedule. */
  lemma OffBeatPathAddsUp(e: Engine, pad: PadId, inputs: PadInputs, now: real, fireAt: real, tickAt: real,
                          buffers: map<PadId, PadVoice.DecodedAudio>, sliders: PadId -> real, k: nat)
    requires e.globalBpm > 0
    requires pad !in e.rhythmIntervals
    requires inputs.timingChoice.Some? && inputs.timingChoice.value != "onbeat"
    requires k >= 1
    ensures var interval := Tempo.IntervalMs(Tempo.ResolvePadBpm(inputs.bpmField, e.globalBpm));
            var armed := TogglePad(e, pad, inputs, now).engine;
            var oneShot := armed.timers[armed.rhythmIntervals[pad]];
            var started := Fire(armed, armed.rhythmIntervals[pad], fireAt, buffers, sliders).engine;
            var tick := started.timers[started.rhythmIntervals[pad]];
            var ticked := Fire(started, started.rhythmIntervals[pad], tickAt, buffers, sliders).engine;
            var delayed := ticked.timers[started.nextHandle];
            && tick == Timer(OffBeatTicks(pad, interval), interval, true)
            && delayed.task == DelayedHit(pad)
            && Alignment.OneShotFiresAt(
                 Alignment.RecurringFiresAt(Alignment.OneShotFiresAt(now, oneShot.delayMs), tick.delayMs, k),
                 delayed.delayMs)
               == Alignment.OffBeatHitTime(now, interval, e.beatCounter, k)
  {
  }

  /** Likewise for an on-beat pad: the one-shot's delay lands on hit 0, and
      k further periods of the recurring timer land on hit k. */
  lemma OnBeatPathAddsUp(e: Engine, pad: PadId, inputs: PadInputs, now: real, fireAt: real,
                         buffers: map<PadId, PadVoice.DecodedAudio>, sliders: PadId -> real, k: nat)
    requires e.globalBpm > 0
    requires pad !in e.rhythmIntervals
    requires inputs.timingChoice == Some("onbeat")
    requires k >= 1
    ensures var interval := Tempo.IntervalMs(Tempo.ResolvePadBpm(inputs.bpmField, e.globalBpm));
            var armed := TogglePad(e, pad, inputs, now).engine;
            var oneShot := armed.timers[armed.rhythmIntervals[pad]];
            var started := Fire(armed, armed.rhythmIntervals[pad], fireAt, buffers, sliders).engine;
            var hits := started.timers[started.rhythmIntervals[pad]];
            && hits == Timer(OnBeatHits(pad), interval, true)
            && Alignment.OneShotFiresAt(now, oneShot.delayMs) == Alignment.OnBeatHitTime(now, interval, e.beatCounter, 0)
            && Alignment.RecurringFiresAt(Alignment.OneShotFiresAt(now, oneShot.delayMs), hits.delayMs, k)
               == Alignment.OnBeatHitTime(now, interval, e.beatCounter, k)
  {
  }

  /** The nested `setTimeout` of an off-beat pad is kept nowhere, so the
      off-beat tick leaves a pending hit that toggling the pad off does not
      clear: it still plays, for a pad that is no longer running. */
  lemma OffBeatHitOutlivesToggleOff(e: Engine, h: Handle, now: real, buffers: map<PadId, PadVoice.DecodedAudio>,
                                    sliders: PadId -> real, inputs: PadInputs, later: real)
    requires Valid(e)
    requires h in e.timers && e.timers[h].task.OffBeatTicks?
    ensures var pad := e.timers[h].task.pad;
            var ticked := Fire(e, h, now, buffers, sliders).engine;
            var pending := e.nextHandle;
            var stopped := TogglePad(ticked, pad, inputs, now).engine;
            && pending in ticked.timers && ticked.timers[pending].task == DelayedHit(pad)
            && pad !in stopped.rhythmIntervals
            && pending in stopped.timers
            && Fire(stopped, pending, later, buffers, sliders).hit
               == Some(PadVoice.SelectVoice(pad, buffers, sliders(pad), later))
  {
    var pad := e.timers[h].task.pad;
    FireKeepsValid(e, h, now, buffers, sliders);
    var ticked := Fire(e, h, now, buffers, sliders).engine;
    assert ticked.rhythmIntervals[pad] == h;
    ToggleOffStopsOnlyThatPad(ticked, pad, inputs, now);
  }

  /** A volume edit keeps the invariant. */
  lemma UpdateVolumeKeepsValid(e: Engine, pad: PadId, value: real)
    requires Valid(e)
    ensures Valid(UpdateVolume(e, pad, value))
  {
  }

  /** A volume edit never changes what any timer does: running a timer after
      the edit plays the same hit and leaves the same timers as running it
      before, and the hit's gain is the slider's value when it plays. */
  lemma VolumeEditInvisibleToTimers(e: Engine, pad: PadId, value: real, h: Handle, now: real,
                                    buffers: map<PadId, PadVoice.DecodedAudio>, sliders: PadId -> real)
    requires h in e.timers
    ensures var before := Fire(e, h, now, buffers, sliders);
            var after := Fire(UpdateVolume(e, pad, value), h, now, buffers, sliders);
            && after.hit == before.hit
            && after.engine.timers == before.engine.timers
            && after.engine.rhythmIntervals == before.engine.rhythmIntervals
            && (after.hit.Some? ==> after.hit.value.gain == sliders(e.timers[h].task.pad))
  {
  }

  /** The stop button leaves a valid engine with no pad and no indicator; the
      only timers it cannot clear are pending off-beat hits. */
  lemma GlobalStopLeavesOnlyDelayedHits(e: Engine)
    requires Valid(e)
    ensures var r := StopAll(e);
            && Valid(r)
            && r.rhythmIntervals == map[]
            && BeatTickHandles(r) == {}
            && (forall p :: TrackedHandles(r, p) == {})
  {
  }
}

=== FILE: session.dfy ===
/** A session on the page: the clicks, timer runs, stop presses and volume
    edits that reach the scheduler, one after another on the event loop. */
module Session {
  import opened Common
  import BeatGrid
  import Tempo
  import Alignment
  import PadVoice
  import opened PadScheduler
  import SchedulerProperties

  /** One thing the event loop hands to the scheduler. */
  datatype Event =
    | PadClicked(pad: PadId, inputs: PadInputs, now: real)
    | TimerRan(handle: Handle, now: real, buffers: map<PadId, PadVoice.DecodedAudio>, sliders: PadId -> real)
    | StopPressed
    | VolumeMoved(pad: PadId, value: real)

  /** The engine after one event. The host only runs live timers, so a
      handle that has been cleared does nothing. */
  function Apply(e: Engine, ev: Event): (r: Engine)
    requires e.globalBpm > 0
    ensures r.globalBpm == e.globalBpm
    ensures ev.PadClicked? ==>
              (ev.pad in r.rhythmIntervals <==> ev.pad !in e.rhythmIntervals && ev.inputs.timingChoice.Some?)
    ensures ev.PadClicked? ==> forall q :: q != ev.pad ==> (q in r.rhythmIntervals <==> q in e.rhythmIntervals)
    ensures ev.StopPressed? ==> r.rhythmIntervals == map[] && r.indicator.None? && r.beatCounter == 1
    ensures ev.VolumeMoved? ==>
              ev.pad in r.volumeControls && r.volumeControls[ev.pad] == SliderValue(ev.value)
              && r.timers == e.timers && r.rhythmIntervals == e.rhythmIntervals
    ensures ev.TimerRan? && ev.handle in e.timers && e.timers[ev.handle].task.BeatTick? ==>
              r == TickBeatIndicator(e)
    ensures ev.TimerRan? && ev.handle !in e.timers ==> r == e
  {
    match ev
    case PadClicked(pad, inputs, now) => TogglePad(e, pad, inputs, now).engine
    case TimerRan(h, now, buffers, sliders) =>
      if h in e.timers then Fire(e, h, now, buffers, sliders).engine else e
    case StopPressed => StopAll(e)
    case VolumeMoved(pad, value) => UpdateVolume(e, pad, value)
  }

  /** The engine after a whole sequence of events. */
  function Run(e: Engine, events: seq<Event>): (r: Engine)
    requires e.globalBpm > 0
    ensures r.globalBpm == e.globalBpm
    decreases |events|
  {
    if |events| == 0 then e else Run(Apply(e, events[0]), events[1..])
  }

  /** Every event keeps the invariant. */
  lemma ApplyKeepsValid(e: Engine, ev: Event)
    requires Valid(e)
    ensures Valid(Apply(e, ev))
  {
    match ev
    case PadClicked(pad, inputs, now) =>
      SchedulerProperties.ToggleKeepsValid(e, pad, inputs, now);
    case TimerRan(h, now, buffers, sliders) =>
      if h in e.timers {
        SchedulerProperties.FireKeepsValid(e, h, now, buffers, sliders);
      }
    case StopPressed =>
    case VolumeMoved(pad, value) =>
      SchedulerProperties.UpdateVolumeKeepsValid(e, pad, value);
  }

  /** Any sequence of events keeps the invariant. */
  lemma {:induction false} RunKeepsValid(e: Engine, events: seq<Event>)
    requires Valid(e)
    ensures Valid(Run(e, events))
    decreases |events|
  {
    if |events| > 0 {
      ApplyKeepsValid(e, events[0]);
      RunKeepsValid(Apply(e, events[0]), events[1..]);
    }
  }

  /** Whatever happens after the page loads, the beat counter stays within
      1..4, the indicator runs exactly while some pad is running, and each
      running pad owns exactly one tracked timer. */
  lemma EveryReachableEngineIsValid(globalField: Option<int>, events: seq<Event>, p: PadId)
    ensures var e := Run(Load(globalField), events);
            && Valid(e)
            && BeatGrid.InBar(e.beatCounter)
            && (e.indicator.Some? <==> |e.rhythmIntervals| > 0)
            && (p in e.rhythmIntervals ==> SchedulerProperties.TrackedHandles(e, p) == {e.rhythmIntervals[p]})
            && (p !in e.rhythmIntervals ==> SchedulerProperties.TrackedHandles(e, p) == {})
  {
    RunKeepsValid(Load(globalField), events);
    SchedulerProperties.OneTrackedTimerPerPad(Run(Load(globalField), events), p);
  }

  /** The worked case: global tempo 120, pad tempo 120, counter on beat 3.
      Two beats remain until beat 1, so the first hit is one second after the
      next half-second grid point. */
  lemma PhaseAlignmentAtBeatThree(now: real)
    ensures var interval := Tempo.IntervalMs(Tempo.ResolvePadBpm(Some(120), Tempo.ResolveGlobalBpm(Some(120))));
            && interval == 500.0
            && BeatGrid.BeatsUntilNextBeat1(3) == 2
            && Alignment.FirstBeatTime(now, interval / Alignment.MsPerSecond, 3)
               == Alignment.NextBeatTime(now, 0.5) + 1.0
  {
  }
}

=== FILE: tempo.dfy ===
/** Tempo resolution: the global BPM, a pad's BPM, and the beat interval. */
module Tempo {
  import opened Common

  /** The tempo used when the global BPM field does not hold a positive number. */
  const DefaultGlobalBpm: int := 120

  /** Milliseconds in one minute: a beat at `bpm` lasts this many ms over `bpm`. */
  const MsPerMinute: real := 60000.0

  /** `parseInt` of a field is modelled as `Some(n)` for a number and `None`
      for NaN; a parse is usable when it is a number above zero. */
  predicate Usable(parsed: Option<int>)
  {
    parsed.Some? && parsed.value > 0
  }

  /** The global tempo: the parsed field when usable, otherwise 120. */
  function ResolveGlobalBpm(parsed: Option<int>): (bpm: int)
    ensures bpm > 0
    ensures Usable(parsed) ==> bpm == parsed.value
    ensures !Usable(parsed) ==> bpm == DefaultGlobalBpm
  {
    if parsed.None? || parsed.value <= 0 then DefaultGlobalBpm else parsed.value
  }

  /** A pad's tempo: its own parsed field when usable, otherwise the global tempo. */
  function ResolvePadBpm(parsed: Option<int>, globalBpm: int): (bpm: int)
    requires globalBpm > 0
    ensures bpm > 0
    ensures Usable(parsed) ==> bpm == parsed.value
    ensures !Usable(parsed) ==> bpm == globalBpm
  {
    if parsed.None? || parsed.value <= 0 then globalBpm else parsed.value
  }

  /** `60000 / bpm`: the length of one beat in milliseconds. */
  function IntervalMs(bpm: int): (ms: real)
    requires bpm > 0
    ensures ms > 0.0
    ensures ms * bpm as real == MsPerMinute
  {
    MsPerMinute / bpm as real
  }

  /** Whatever the two fields hold, a pad's beat has a positive length, and
      when neither field is usable the pad runs at 120 BPM, i.e. 500 ms. */
  lemma PadIntervalAlwaysPositive(padField: Option<int>, globalField: Option<int>)
    ensures IntervalMs(ResolvePadBpm(padField, ResolveGlobalBpm(globalField))) > 0.0
    ensures !Usable(padField) && !Usable(globalField) ==>
              IntervalMs(ResolvePadBpm(padField, ResolveGlobalBpm(globalField))) == 500.0
  {
  }

  /** A pad whose own field is usable ignores the global tempo entirely. */
  lemma PadTempoIndependentOfGlobal(padField: Option<int>, g1: int, g2: int)
    requires g1 > 0 && g2 > 0
    requires Usable(padField)
    ensures ResolvePadBpm(padField, g1) == ResolvePadBpm(padField, g2)
  {
  }
}
